=== FILE: README.md ===
# UangKu expense tracker — a Dafny model of its core

UangKu is a single-page expense tracker. Its class `UangKuApp` (`script.js`) keeps a
log of expense records in memory, newest first, and saves it under
`uangku_transactions` after every change. The app adds, edits and deletes records,
resets the log, shows totals for today, this week and this month, draws a chart of
the month's spending by category, draws a six-week calendar of the month in view,
and lists all records with a category filter.

This project models that core in Dafny:

- `text.dfy` (`Text`): decimal text of numbers, `parseInt`, stripping non-digits,
  `padStart(2, '0')`, and JavaScript's `<` and `<=` on strings.
- `civil_dates.dfy` (`CivilDates`): calendar dates as `Date` handles them in local
  time, using day numbers and weekdays (`getDay()`). Also the overflowing setters
  `setDate` and `setMonth`.
- `iso_dates.dfy` (`IsoDates`): the `YYYY-MM-DD` text the app builds, plus
  `getMonthStart` and `getWeekStart`. Proves that comparing these texts orders
  them by calendar date.
- `categories.dfy` (`Categories`): `getCategoryName` and `getCategoryIcon`.
- `ledger.dfy` (`Ledger`): the record type and the log operations as functions:
  - the filters for delete, date, date range and category;
  - the sum of amounts;
  - the log after a delete or an edit;
  - the five most recent records;
  - `findIndex`.
- `dashboard.dfy` (`Dashboard`): the three totals of `updateDashboard`.
- `chart.dfy` (`Chart`): the grouping loop of `updateChart`, proved against a
  recursive function `Group` that specifies it.
- `calendar.dfy` (`Calendar`):
  - the 42-cell grid of `renderCalendar`;
  - the other-month mark;
  - month navigation.
- `amount.dfy` (`Amount`): the amount inputs. Covers the keystroke formatter and
  `getNumericValue`.
- `app.dfy` (`App`): the class `UangKuApp`. Its fields are the log, the open list,
  the filter, the month in view, the edit state, the two amount inputs and storage.
  Its methods are the handlers that change them.

Parameters stand in for the clock, `Date.now()` ids, the form fields other than
the amount inputs, and storage (the field `saved`). The calendar, dashboard and
chart are views computed from the state. The model gives them as functions and
methods of the log, not as DOM updates.

The model keeps three behaviours of the code that are easy to overlook:

- Nothing is validated on add or edit. An amount that reads as 0 is stored, and so
  are empty fields.
- An edit of an id that no record has returns with nothing changed.
- The clamp to 999,999,999 at script.js:42-47 has no effect (see Findings).

## Model

| member | source | states |
|---|---|---|
| Text.KeepDigits | script.js:34 | `replace(/[^\d]/g, '')` leaves only digits, never lengthens the text, leaves a digit string unchanged, and on one character keeps it exactly when it is a digit |
| Text.KeepDigitsAppend | script.js:34 | stripping `a + b` gives the digits of `a` followed by those of `b`; with the one-character case this fixes the result on every text: all the digits, in order, and nothing else |
| Text.ParseInt | script.js:94 | `parseInt` gives NaN (`None`) exactly when the text does not start with a digit, and reads an all-digit text as its number |
| Text.ParseNatToString | script.js:94 | `parseInt(String(n))` is `n` for every non-negative `n` (numbers taken as exact; in JavaScript up to `Number.MAX_SAFE_INTEGER`) |
| Text.IntToStringInjective | script.js:265 | different years give different `String(year)` texts |
| Text.PadStart2OfNat | script.js:263-264 | `String(n).padStart(2, '0')` is the two-digit form of `n` for every `n < 100` |
| Text.StrLeIsTotalOrder | script.js:556 | JavaScript's `<=` on strings is reflexive, antisymmetric, transitive and total |
| CivilDates.AddDays | script.js:260 | stepping `k` whole days from a valid date gives a valid date `k` day numbers later |
| CivilDates.SetDate | script.js:248 | `setDate(n)` gives the date `n - 1` days after the first of the same month, overflowing into the neighbouring months |
| CivilDates.SetMonth | script.js:233 | `setMonth(m0)` keeps the day of the month and counts it from the first of month `m0`, with the year absorbing multiples of twelve, so a day the target month lacks overflows into the next month |
| CivilDates.DayNumberOrder | script.js:556 | day numbers order dates exactly as (year, month, day) does, and equal day numbers mean equal dates |
| IsoDates.ToIsoString | script.js:262-265 | the `YYYY-MM-DD` text built with `padStart`; `IsoDates.IsoStringInjective` and `IsoDates.IsoOrderIsCalendarOrder` state its properties |
| IsoDates.IsoStringInjective | script.js:262-265 | different dates never share a `YYYY-MM-DD` text |
| IsoDates.IsoOrderIsCalendarOrder | script.js:556 | for four-digit years, `<` and `<=` on the texts agree with calendar order |
| IsoDates.GetMonthStart | script.js:572-577 | the month-start text; `IsoDates.MonthStartIsFirstOfMonth` states what it is |
| IsoDates.MonthStartIsFirstOfMonth | script.js:572-577 | `getMonthStart()` is the text of the first of today's month, `day - 1` days before today |
| IsoDates.GetWeekStart | script.js:560-570 | the week-start text; `IsoDates.WeekStartIsMonday` states which date it is |
| IsoDates.WeekStartIsMonday | script.js:560-570 | `getWeekStart()` lands on a Monday 0 to 6 days before today: six days back on a Sunday, `getDay() - 1` days back otherwise |
| Categories.CategoryName | script.js:622-633 | the name is always one of the seven display names, and it is `Lainnya` exactly for `lainnya` and for every category outside the table |
| Categories.CategoryNamesDistinct | script.js:623-631 | the seven keys have seven different names |
| Categories.CategoryIcon | script.js:609-620 | the icon table; `Categories.IconFallbackMatchesNameFallback` states when it falls back |
| Categories.IconFallbackMatchesNameFallback | script.js:609-620 | the icon falls back to the `lainnya` icon exactly when the name falls back to `Lainnya` |
| Ledger.Total | script.js:557 | the `reduce((sum, t) => sum + t.amount, 0)` sum; `Ledger.TotalAppend` states that it adds up over concatenation |
| Ledger.TotalAppend | script.js:557 | the sum of two logs joined is the sum of the first plus the sum of the second |
| Ledger.FilterExactly | script.js:474-475 | a filter keeps each matching record as often as the log holds it, drops every other record, and keeps log order |
| Ledger.FilterMembers | script.js:515 | every record a filter keeps is in the log and matches |
| Ledger.FilterNonEmpty | script.js:278-279 | a filter is non-empty exactly when some record matches |
| Ledger.FilterKeepsUniqueIds | script.js:515 | filtering a log with unique ids keeps them unique |
| Ledger.DeleteById | script.js:515 | the log after a delete; `Ledger.DeleteRemovesExactlyThatId` states what it keeps |
| Ledger.DeleteRemovesExactlyThatId | script.js:514-515 | after a delete no record has the id; every other record keeps its multiplicity and order; the log never grows |
| Ledger.DeleteAbsentIsIdentity | script.js:515 | deleting an id no record has leaves the log unchanged |
| Ledger.AddThenDeleteRestores | script.js:498 | adding a record with a fresh id and then deleting that id restores the log |
| Ledger.StoreKeepsUniqueIds | script.js:485 | adding a record with a fresh id, or deleting any id, keeps ids unique |
| Ledger.EditById | script.js:444-450 | an edit keeps the log's length and every record's id and timestamp |
| Ledger.EditAtFirstMatch | script.js:438-450 | an edit replaces the record at the first index holding the id, taking the four new fields, and changes nothing else |
| Ledger.EditAbsentIsIdentity | script.js:438-439 | editing an id no record has leaves the log unchanged |
| Ledger.FindIndex | script.js:438 | `findIndex` gives -1 exactly when no record has the id, otherwise the first index holding it |
| Ledger.Recent | script.js:581 | `slice(0, 5)` is a prefix of the log: five records, or the whole log when it is shorter |
| Ledger.RecentAfterAdd | script.js:498 | after an add the new record is shown first and the others move down one place |
| Ledger.FilterByCategory | script.js:344-348 | the list view's category filter; `Ledger.FilterByCategoryExactly` states what it keeps |
| Ledger.FilterByCategoryExactly | script.js:341-348 | the empty selection shows the whole log; otherwise exactly the records of that category, each as often as the log holds it, in log order |
| Ledger.GetTransactionsByDate | script.js:474-476 | the records of one date; `Ledger.FilterExactly` states that they are exactly the records with that date text, with their multiplicities, in log order |
| Ledger.GetTotalByDateRange | script.js:554-558 | the range total; `Ledger.SingleDayRange` and `Ledger.RangeTotalMonotone` state its properties |
| Ledger.SingleDayRange | script.js:545 | the one-day range `today..today` selects the same records as `getTransactionsByDate(today)` |
| Ledger.RangeTotalMonotone | script.js:554-557 | widening a date range on either side never lowers its total |
| Dashboard.UpdateDashboard | script.js:535-552 | the three totals; `Dashboard.DashboardRangesAreCalendarRanges` and `Dashboard.DashboardTotalsOrdered` state what they sum |
| Dashboard.DashboardRangesAreCalendarRanges | script.js:542-547 | for four-digit years, a record dated `x` counts towards the week's total exactly when `x` is between this week's Monday and today, and towards the month's total exactly when `x` is in today's month on or before today |
| Dashboard.DashboardTotalsOrdered | script.js:545-547 | today's total is the sum of today's records, and it is at most the week's total and at most the month's total |
| Chart.NamesOfExactly | script.js:729 | a name is among the names of a list of records exactly when some record has it, and each such name is one of the seven display names |
| Chart.AddToGroup | script.js:729-730 | one step of the `forEach` is the step `AddRecord` of `Group` |
| Chart.GroupByName | script.js:728-731 | the loop's labels and sums are `Group` of the records, in order |
| Chart.GroupLabelsAreKeys | script.js:733 | the labels are the keys of the grouping, each once |
| Chart.GroupKeysAreNamesSeen | script.js:729-730 | the keys are exactly the display names of the records grouped |
| Chart.GroupValuesAreSums | script.js:730 | each key holds the sum of the amounts of the records with that display name |
| Chart.GroupSumIsTotal | script.js:734 | the values, added up in label order, give the total of the records grouped |
| Chart.UpdateChart | script.js:719-734 | groups the records dated from `getMonthStart()` of the local date to today's UTC date text. Its result is `Group` of those records. The labels are unique and are the keys. The keys are the names that occur. Each value is the total for its name. The values add up to `getTotalByDateRange(monthStart, today)` |
| Calendar.GridStart | script.js:244-248 | the first cell's date; `Calendar.GridStartIsSunday` states which date it is |
| Calendar.GridStartIsSunday | script.js:244-248 | the grid starts on a Sunday, `getDay()` of the first of the month days before it |
| Calendar.GridShowsWholeMonth | script.js:259-260 | the month fits in the six weeks. Cell `k` lies in the viewed month exactly when `w <= k < w + days in month`, where `w` is the first's weekday. It is then day `k - w + 1` |
| Calendar.OtherMonthAsWritten | script.js:263-270 | the other-month test as written; `Calendar.OtherMonthAsWrittenMarksEveryCell` states that it always holds |
| Calendar.OtherMonthAsWrittenMarksEveryCell | script.js:263-272 | as written, every cell is marked `other-month`, including the first of the viewed month |
| Calendar.OtherMonthMarksOutsideCells | script.js:270-272 | with the intended comparison, exactly the cells before the first and after the last of the month are marked |
| Calendar.RenderCalendar | script.js:237-290 | renders 42 cells. Cell `k` holds the date `k` days after the grid start. It also holds that date's text and its day of the month. It carries the other-month mark as written, which is set on every cell, and it is marked today exactly on today's date. It has expenses exactly when some record has that date, with that date's count and total |
| Calendar.TodayMarkedAtMostOnce | script.js:274-276 | at most one cell is marked today |
| Calendar.CellsOfTheMonth | script.js:259-272 | every day of the viewed month appears in cell `w + day - 1`. The intended mark would leave that cell unmarked; as written it is marked `other-month` |
| Calendar.NextFromJanuary31SkipsFebruary | script.js:232-233 | as written, "next month" from 31 January shows March (day 3, or day 2 in a leap year): two months on, not one |
| Calendar.NavigateMonthAsWritten | script.js:232-233 | `setMonth(getMonth() + direction)` always gives a valid date; `Calendar.NavigateMonthKeepsDay` states which |
| Calendar.NavigateMonthKeepsDay | script.js:232-233 | as written, the date lands on the same day of the month `direction` months away exactly when that month has the day; otherwise it overflows past it |
| Calendar.ShiftMonth | script.js:232-233 | the intended navigation: the first of the month exactly `direction` months away |
| Calendar.ShiftMonthRoundTrip | script.js:232-233 | moving `direction` months and back returns to the first of the starting month |
| Amount.FormatAmountInput | script.js:33-55 | as written, the stored digits are empty exactly when no digit was typed, and are digits only |
| Amount.GetNumericValue | script.js:93-95 | stored digits read back as their number; with nothing stored and no digit shown, the reading is 0 |
| Amount.FormatNumberWithSeparator | script.js:89-91 | the shown amount; `Amount.ShownAmountStripsToNumber` states what it reads back as |
| Amount.ShownAmountStripsToNumber | script.js:89-91 | the number shown with thousands separators, stripped to its digits, is `String(n)` |
| Amount.ReadsTypedNumber | script.js:33-55 | as written, `getNumericValue` after a keystroke reads the number whose digits were typed, and 0 when no digit was typed, for numbers up to `Number.MAX_SAFE_INTEGER` |
| Amount.CapIsIneffective | script.js:42-47 | as written, a number above 999999999, up to `Number.MAX_SAFE_INTEGER`, is stored and read back unchanged |
| Amount.FormatAmountInputCapped | script.js:33-55 | with the cap applied, the stored digits are still empty exactly when no digit was typed, and are digits only |
| Amount.ReadsCappedNumber | script.js:42-47 | with the cap applied, the number read back is the typed number, or 999999999 when the typed number exceeds it |
| Amount.ReformattingIsStable | script.js:50-51 | as written, re-reading the grouped text that a keystroke showed leaves the input unchanged |
| Amount.EditFieldReadsBack | script.js:416-417 | the amount that `openEditModal` writes into the edit input reads back as the same amount |
| App.UangKuApp.constructor | script.js:2-7 | the log is the stored list, or empty when nothing is stored; the calendar shows the month of now |
| App.UangKuApp.SaveTransactions | script.js:531-533 | storage holds the log; nothing else changes |
| App.UangKuApp.RenderAllTransactions | script.js:336-339 | the list shows the whole log |
| App.UangKuApp.RefreshOpenList | script.js:509-511 | an open list is re-rendered with the whole log; a closed one is left alone |
| App.UangKuApp.AddTransaction | script.js:497-512 | the record goes first and every old record moves one index up. The log is saved and an open list refreshed. The invariant holds |
| App.UangKuApp.InputAmount | script.js:33-55 | the add form's input after the keystroke handler as written; it reads back the typed number, uncapped, for numbers up to `Number.MAX_SAFE_INTEGER` |
| App.UangKuApp.CloseModal | script.js:164-172 | the add form's amount input is cleared |
| App.UangKuApp.HandleFormSubmit | script.js:478-495 | adds a record with the typed amount and the form's fields in front of the log, then clears the input |
| App.UangKuApp.DeleteTransaction | script.js:514-529 | the log loses exactly the records with the id and keeps the rest in order. An absent id changes nothing. The log is saved |
| App.UangKuApp.OpenEditModal | script.js:411-424 | for a present id, the id is remembered and the edit input reads back the amount of the first record with it; for an absent id, nothing changes |
| App.UangKuApp.InputEditAmount | script.js:33-55 | the edit form's input after the keystroke handler as written; it reads back the typed number, uncapped, for numbers up to `Number.MAX_SAFE_INTEGER` |
| App.UangKuApp.CloseEditModal | script.js:426-433 | no id is remembered and the edit input is cleared |
| App.UangKuApp.HandleEditFormSubmit | script.js:435-466 | with a remembered id held by a record, the log becomes `EditById` of it with the typed amount and the form's fields; it is then saved, the form closed and an open list refreshed. Otherwise nothing changes. The length is kept |
| App.UangKuApp.StoreEdited | script.js:444-466 | the record at the index takes the new fields, the log is saved, the edit form closed and an open list refreshed |
| App.UangKuApp.ConfirmReset | script.js:203-219 | the log is emptied and saved, and an open list is emptied with it |
| App.UangKuApp.OpenAllTransactionsModal | script.js:184-187 | the list opens showing the whole log |
| App.UangKuApp.CloseAllTransactionsModal | script.js:189-193 | the list closes, emptied, with the selection cleared |
| App.UangKuApp.FilterTransactions | script.js:341-351 | the list shows the whole log for the empty selection. Otherwise it shows exactly the records of the category, with their multiplicities, in log order |
| App.UangKuApp.ResetFilter | script.js:353-357 | the selection is cleared and the list shows the whole log |
| App.UangKuApp.NavigateMonth | script.js:232-235 | the date in view becomes `setMonth(getMonth() + direction)` of itself. When the target month has its day, that is the same day `direction` months on; otherwise it overflows. The grid for the new date's month is rendered |
| App.UangKuApp.OpenCalendarModal | script.js:174-177 | the grid for the month in view is rendered |

Every handler that changes the log keeps `Valid()`:

- the date in view is a real date;
- storage reads back as the log;
- an open list shows records of the log only, in log order.

## Left out

- The DOM, modals, notifications and event wiring (`init`, `setupEventListeners`,
  `openModal`, the reset and daily-detail modals). Where they change model state,
  the handlers that change it are modelled.
- `renderDailyDetail` and `updateAllTransactionsDisplay`, which only render. They
  build their lists with `getTransactionsByDate` and the filtered list, which are
  modelled.
- Intl currency and number formatting is left out (`formatCurrency`, and
  `toLocaleDateString` for the month title and dates). For whole numbers,
  `formatNumberWithSeparator` is modelled as grouping the digits by thousands with `.`.
- Chart.js itself (`initChart`, `chart.update`). `updateChart` is modelled up to the
  labels and values it hands to the chart.
- `localStorage` and JSON. Storage is the field `saved`; corrupt stored JSON, which
  makes the constructor throw, is not modelled.
- `addSampleData` (demo seeding). `formatAmountOnBlur` and `formatAmountOnFocus`,
  which only change the visible text.
- `deleteTransactionConfirm`'s `confirm` dialog. `DeleteTransaction` models the
  confirmed case.
- The clock. `today` and `now` are parameters. The dashboard and calendar take the
  local date. `UpdateChart` takes two: the local date, from which it computes
  `getMonthStart()`, and the UTC date text of `toISOString`. Near midnight the two
  can fall on different days; the model leaves that to the caller.
- Dashboard.UpdateDashboard / Dashboard.DashboardTotalsOrdered: `updateDashboard`
  reads the clock three times: once for today's text, once in `getWeekStart` and
  once in `getMonthStart`. The model takes all three reads as one date, and the
  ordering of the totals depends on that. If midnight falls between the reads, the
  source can pair Sunday's text with the next Monday as week start, or the last
  day of a month with the next month's start. The week or month range is then
  empty and its total 0, below today's total.
- Calendar.GridStart / Calendar.NavigateMonthAsWritten: dates are unbounded
  proleptic Gregorian dates. Two behaviours of JavaScript's `Date` are not
  modelled:
  - `new Date(year, month, 1)` reads years 0 to 99 as 1900 + year, so for such a
    viewed year the source draws the grid of 1900 + year;
  - a `Date` holds only about years -271821 to 275760, and `setMonth` past that
    range gives an Invalid Date, which the model, always giving a valid date,
    does not capture.
- Time of day and daylight saving. Dates are whole calendar days, and the calendar
  steps from the grid start by whole days. The source steps by `i * 86400000`
  milliseconds from local midnight. Where the grid spans a change of the clock
  this drifts by an hour. After a fall-back change, the following cells land at
  23:00 of the day before, so one date appears twice and the grid shows only 41
  dates. The model does not capture that drift.
- Ids are integers compared with `==`. The string `data-id` attribute and the loose
  `==` in `find`/`findIndex` are not modelled. Ids are parameters, so two records
  may share one (as `Date.now()` can give the same id twice), and every handler's
  contract covers that case. Unique ids are not kept as an invariant of the class;
  `Ledger.StoreKeepsUniqueIds` states when adds and deletes keep them.
- Transaction.date is the text of the form's date field. Comparisons on it are
  JavaScript's code-unit comparisons, modelled on characters. UTF-16 surrogate
  pairs are not modelled.
- Text.ParseInt: leading whitespace and signs are not modelled. It reads the text
  the keystroke handler stores, which is `String(numericValue)`. That text is all
  digits only below 10^21. From 10^21 on it is exponent notation (`"1e+21"`),
  which `parseInt` reads as 1.
- Amount.FormatAmountInput: models JavaScript numbers as exact whole numbers. Above
  `Number.MAX_SAFE_INTEGER` (2^53 - 1), the source's `parseInt` loses digits, and
  from 10^21 the stored text is exponent notation that reads back as 1.
- Amount.ReadsTypedNumber: stated only for typed numbers up to
  `Number.MAX_SAFE_INTEGER`, for the reason above.
- Amount.CapIsIneffective: stated only for numbers up to `Number.MAX_SAFE_INTEGER`,
  for the reason above.
- App.UangKuApp.InputAmount: the typed number is read back only up to
  `Number.MAX_SAFE_INTEGER`, for the reason above.
- App.UangKuApp.InputEditAmount: the same bound as `InputAmount`.
- Categories.CategoryName: inherited object keys such as `constructor` are not
  modelled. With those, `names[category]` is not `undefined`.
- After a store change the source also calls `updateDashboard`, `renderTransactions`,
  `updateChart` and `renderCalendar`. In the model these are views of the new state:
  `UpdateDashboard`, `Recent`, `UpdateChart` and `RenderCalendar`. The handlers do
  not call them again.
- The unused `lastDay` in `renderCalendar`.

## Findings

| source | as written | input that shows it | evidently intended | confidence | as-written member | corrected member |
|---|---|---|---|---|---|---|
| script.js:263-272 | inside the loop `month` is redeclared as the padded month text, so `currentDate.getMonth() !== month` compares a number with a string and is always true | any month: the 1st of the viewed month is marked `other-month` | mark only the cells outside the viewed month | not executed | Calendar.OtherMonthAsWrittenMarksEveryCell | Calendar.OtherMonthMarksOutsideCells |
| script.js:42-47 | the clamp assigns `value = '999999999'`, but `value` is never read again; the stored and shown number stay unclamped | typing `1000000000` stores and reads back 1000000000 | store and show at most 999999999 | not executed | Amount.CapIsIneffective | Amount.ReadsCappedNumber |
| script.js:233 | `setMonth(getMonth() + direction)` keeps the day of the month, which overflows when the target month is shorter | "next" from 31 January 2025 shows March (2025-03-03) | show the month `direction` months away | not executed | Calendar.NextFromJanuary31SkipsFebruary | Calendar.ShiftMonth |

The program model keeps the code's behaviour:

- `RenderCalendar` sets the mark with `OtherMonthAsWritten`.
- `InputAmount` and `InputEditAmount` use the uncapped `FormatAmountInput`.
- `NavigateMonth` uses `NavigateMonthAsWritten`.

The corrected definitions stand beside them with their intended properties
proved: `OtherMonth`, `FormatAmountInputCapped` and `ShiftMonth`.

=== FILE: amount.dfy ===
/** The amount inputs of the add and edit forms. Each keystroke
    (`formatAmountInput`) strips the text to its digits, stores the number's
    decimal text in `dataset.numericValue` and shows it grouped by thousands;
    `getNumericValue` reads the number back when a form is submitted. */
module Amount {
  import opened Wrappers
  import opened Text

  /** The cap the keystroke handler means to impose. */
  const MAX_AMOUNT: nat := 999999999

  /** `Number.MAX_SAFE_INTEGER`: up to here a JavaScript number holds a whole
      number exactly and `String` writes all of its digits. */
  const MAX_SAFE_INTEGER: nat := 9007199254740991

  /** An amount input: its visible text (`input.value`) and the digits kept
      beside it (`input.dataset.numericValue`). */
  datatype AmountField = AmountField(value: string, numericValue: string)

  /** Both parts cleared, as `closeModal` and `closeEditModal` leave them. */
  const EMPTY_FIELD: AmountField := AmountField("", "")

  /** A string of digits with a `.` before every group of three from the
      right. */
  function GroupDigits(s: string): (r: string)
    decreases |s|
  {
    if |s| <= 3 then s else GroupDigits(s[..|s| - 3]) + "." + s[|s| - 3..]
  }

  /** `new Intl.NumberFormat('id-ID').format(n)` for a whole number: its
      digits grouped by thousands with `.`. */
  function FormatNumberWithSeparator(n: nat): string {
    GroupDigits(NatToString(n))
  }

  /** Stripping the separators from grouped digits gives the digits back. */
  lemma {:induction false} GroupDigitsStripsBack(s: string)
    requires AllDigits(s)
    ensures KeepDigits(GroupDigits(s)) == s
    decreases |s|
  {
    if |s| > 3 {
      var head, tail := s[..|s| - 3], s[|s| - 3..];
      GroupDigitsStripsBack(head);
      KeepDigitsAppend(GroupDigits(head) + ".", tail);
      KeepDigitsAppend(GroupDigits(head), ".");
      assert KeepDigits(".") == [];
      assert s == head + tail;
    }
  }

  /** The shown amount, stripped of its separators, is the decimal text of
      the number. */
  lemma ShownAmountStripsToNumber(n: nat)
    ensures KeepDigits(FormatNumberWithSeparator(n)) == NatToString(n)
  {
    GroupDigitsStripsBack(NatToString(n));
  }

  // ---------------------------------------------------------------------------
  // The keystroke handler
  // ---------------------------------------------------------------------------

  /** `formatAmountInput` as written: the clamp assigns only the local
      `value`, which is not read again, so the stored number is not capped. */
  function FormatAmountInput(text: string): (f: AmountField)
    ensures f.numericValue == "" <==> KeepDigits(text) == ""
    ensures AllDigits(f.numericValue)
  {
    var digits := KeepDigits(text);
    if digits == "" then EMPTY_FIELD
    else
      var n := ParseDigits(digits);
      AmountField(if n > 0 then FormatNumberWithSeparator(n) else "", NatToString(n))
  }

  /** `formatAmountInput` with the cap applied to the stored and shown number. */
  function FormatAmountInputCapped(text: string): (f: AmountField)
    ensures f.numericValue == "" <==> KeepDigits(text) == ""
    ensures AllDigits(f.numericValue)
  {
    var digits := KeepDigits(text);
    if digits == "" then EMPTY_FIELD
    else
      var n := if ParseDigits(digits) > MAX_AMOUNT then MAX_AMOUNT else ParseDigits(digits);
      AmountField(if n > 0 then FormatNumberWithSeparator(n) else "", NatToString(n))
  }

  // ---------------------------------------------------------------------------
  // Reading the number back
  // ---------------------------------------------------------------------------

  /** `parseInt(input.dataset.numericValue || input.value.replace(/[^\d]/g, '')) || 0`:
      the stored digits, or else the digits of the visible text; NaN and 0
      both give 0. */
  function GetNumericValue(f: AmountField): (r: nat)
    ensures f.numericValue != "" && AllDigits(f.numericValue) ==> r == ParseDigits(f.numericValue)
    ensures f.numericValue == "" && KeepDigits(f.value) == "" ==> r == 0
  {
    var text := if f.numericValue != "" then f.numericValue else KeepDigits(f.value);
    match ParseInt(text)
    case None => 0
    case Some(n) => n
  }

  /** The number read back is the number whose digits were typed, in order,
      whatever else was typed among them; no digits read as 0. */
  lemma ReadsTypedNumber(text: string)
    requires ParseDigits(KeepDigits(text)) <= MAX_SAFE_INTEGER
    ensures GetNumericValue(FormatAmountInput(text))
         == if KeepDigits(text) == "" then 0 else ParseDigits(KeepDigits(text))
  {
    var digits := KeepDigits(text);
    if digits != "" {
      ParseNatToString(ParseDigits(digits));
    }
  }

  /** With the cap, the number read back is the typed number, or the cap when
      the typed number exceeds it. */
  lemma ReadsCappedNumber(text: string)
    ensures GetNumericValue(FormatAmountInputCapped(text)) <= MAX_AMOUNT
    ensures KeepDigits(text) != "" ==>
      GetNumericValue(FormatAmountInputCapped(text))
        == if ParseDigits(KeepDigits(text)) > MAX_AMOUNT then MAX_AMOUNT else ParseDigits(KeepDigits(text))
  {
    var digits := KeepDigits(text);
    if digits != "" {
      var n := if ParseDigits(digits) > MAX_AMOUNT then MAX_AMOUNT else ParseDigits(digits);
      ParseNatToString(n);
    }
  }

  /** The next keystroke re-reads the grouped text the previous one showed;
      doing so changes nothing. */
  lemma ReformattingIsStable(text: string)
    ensures var f := FormatAmountInput(text);
      f.value != "" ==> FormatAmountInput(f.value) == f
  {
    var f := FormatAmountInput(text);
    if f.value != "" {
      var n := ParseDigits(KeepDigits(text));
      ShownAmountStripsToNumber(n);
      ParseNatToString(n);
    }
  }

  /** `openEditModal` writes `String(amount)` into both parts of the edit
      input; submitting unchanged reads the same amount back. */
  lemma EditFieldReadsBack(amount: nat)
    ensures GetNumericValue(AmountField(NatToString(amount), NatToString(amount))) == amount
  {
    ParseNatToString(amount);
  }

  /** As written, typing a number above the cap (1000000000, say) stores and
      reads back that number unchanged, as far as numbers are exact. */
  lemma CapIsIneffective(n: nat)
    requires MAX_AMOUNT < n <= MAX_SAFE_INTEGER
    ensures FormatAmountInput(NatToString(n)).numericValue == NatToString(n)
    ensures GetNumericValue(FormatAmountInput(NatToString(n))) == n
  {
    ParseNatToString(n);
    ReadsTypedNumber(NatToString(n));
  }
}

=== FILE: app.dfy ===
/** The application object (`UangKuApp`): the transaction log and the state
    its handlers change. Storage is the field `saved`, the value kept under
    `uangku_transactions`; the clock and the ids (`Date.now()`) are
    parameters; form fields other than the amount inputs are passed in as
    the values the form holds at submission. */
module App {
  import opened Wrappers
  import opened Text
  import opened CivilDates
  import opened Ledger
  import opened Amount
  import opened Calendar

  class UangKuApp {
    /** The log, newest first. */
    var transactions: seq<Transaction>
    /** What the "all transactions" list shows. */
    var filteredTransactions: seq<Transaction>
    /** The category selected in that list's filter (`""` for all). */
    var filterCategory: string
    /** Whether the "all transactions" modal is open. */
    var allTransactionsOpen: bool
    /** The date whose month the calendar shows. */
    var currentDate: Date
    /** The id whose edit form is open (`null` when none). */
    var editingTransactionId: Option<int>
    /** The add form's amount input. */
    var amountField: AmountField
    /** The edit form's amount input. */
    var editAmountField: AmountField
    /** What storage holds under `uangku_transactions`; `None` when nothing
        (or `null`) was stored. */
    var saved: Option<seq<Transaction>>

    /** Storage, read back, gives the log. */
    ghost predicate Persisted()
      reads this
    {
      match saved
      case None => transactions == []
      case Some(s) => s == transactions
    }

    /** What every handler keeps: a real date in view, the log persisted, and
        an open list showing records of the log only, in log order. */
    ghost predicate Valid()
      reads this
    {
      && currentDate.Valid()
      && Persisted()
      && (allTransactionsOpen ==> IsSubsequence(filteredTransactions, transactions))
    }

    /** `new UangKuApp()`: the log is the stored list, or empty when storage
        holds nothing; the calendar shows the month of `now`. */
    constructor(stored: Option<seq<Transaction>>, now: Date)
      requires now.Valid()
      ensures Valid()
      ensures transactions == (match stored case None => [] case Some(s) => s)
      ensures saved == stored && currentDate == now
      ensures filteredTransactions == [] && filterCategory == "" && !allTransactionsOpen
      ensures editingTransactionId == None && amountField == EMPTY_FIELD && editAmountField == EMPTY_FIELD
    {
      transactions := match stored case None => [] case Some(s) => s;
      saved := stored;
      currentDate := now;
      filteredTransactions := [];
      filterCategory := "";
      allTransactionsOpen := false;
      editingTransactionId := None;
      amountField := EMPTY_FIELD;
      editAmountField := EMPTY_FIELD;
    }

    /** `saveTransactions()`. */
    method SaveTransactions()
      modifies this
      ensures saved == Some(transactions) && Persisted()
      ensures unchanged(this`transactions, this`filteredTransactions, this`filterCategory,
                        this`allTransactionsOpen, this`currentDate, this`editingTransactionId,
                        this`amountField, this`editAmountField)
    {
      saved := Some(transactions);
    }

    /** `renderAllTransactions()`: the list shows the whole log, whatever the
        filter's selection. */
    method RenderAllTransactions()
      modifies this`filteredTransactions
      ensures filteredTransactions == transactions
      ensures IsSubsequence(filteredTransactions, transactions)
    {
      filteredTransactions := transactions;
      IsSubsequenceReflexive(transactions);
    }

    /** The list refresh every store change ends with. */
    method RefreshOpenList()
      modifies this`filteredTransactions
      ensures filteredTransactions == if allTransactionsOpen then transactions else old(filteredTransactions)
      ensures allTransactionsOpen ==> IsSubsequence(filteredTransactions, transactions)
    {
      if allTransactionsOpen {
        RenderAllTransactions();
      }
    }

    // -------------------------------------------------------------------------
    // Store changes
    // -------------------------------------------------------------------------

    /** `addTransaction(t)`: `unshift` the record, save, refresh the open list. */
    method AddTransaction(t: Transaction)
      requires Valid()
      modifies this
      ensures Valid()
      ensures transactions == [t] + old(transactions)
      ensures transactions[0] == t
      ensures forall i :: 0 <= i < |old(transactions)| ==> transactions[i + 1] == old(transactions)[i]
      ensures saved == Some(transactions)
      ensures filteredTransactions == if allTransactionsOpen then transactions else old(filteredTransactions)
      ensures unchanged(this`filterCategory, this`allTransactionsOpen, this`currentDate,
                        this`editingTransactionId, this`amountField, this`editAmountField)
    {
      transactions := [t] + transactions;
      SaveTransactions();
      RefreshOpenList();
    }

    /** The add form's amount input after a keystroke (`formatAmountInput`
        as written: the stored number is not capped). */
    method InputAmount(text: string)
      modifies this`amountField
      ensures amountField == FormatAmountInput(text)
      ensures ParseDigits(KeepDigits(text)) <= MAX_SAFE_INTEGER ==>
        GetNumericValue(amountField) == if KeepDigits(text) == "" then 0 else ParseDigits(KeepDigits(text))
    {
      amountField := FormatAmountInput(text);
      if ParseDigits(KeepDigits(text)) <= MAX_SAFE_INTEGER {
        ReadsTypedNumber(text);
      }
    }

    /** `closeModal()`: the add form's amount input is cleared. */
    method CloseModal()
      modifies this`amountField
      ensures amountField == EMPTY_FIELD
    {
      amountField := EMPTY_FIELD;
    }

    /** `handleFormSubmit`: a record with the given id and timestamp, the
        amount read from the amount input and the form's other fields is
        added, and the form is closed. No field is validated. */
    method HandleFormSubmit(id: int, timestamp: string, category: string, description: string, date: string)
      requires Valid()
      modifies this
      ensures Valid()
      ensures transactions
           == [Transaction(id, GetNumericValue(old(amountField)), category, description, date, timestamp)]
              + old(transactions)
      ensures saved == Some(transactions) && amountField == EMPTY_FIELD
      ensures filteredTransactions == if allTransactionsOpen then transactions else old(filteredTransactions)
      ensures unchanged(this`filterCategory, this`allTransactionsOpen, this`currentDate,
                        this`editingTransactionId, this`editAmountField)
    {
      var amount := GetNumericValue(amountField);
      var t := Transaction(id, amount, category, description, date, timestamp);
      AddTransaction(t);
      CloseModal();
    }

    /** `deleteTransaction(id)`: keep the records whose id differs, save,
        refresh the open list. */
    method DeleteTransaction(id: int)
      requires Valid()
      modifies this
      ensures Valid()
      ensures transactions == DeleteById(old(transactions), id)
      ensures !HasId(transactions, id)
      ensures forall t :: multiset(transactions)[t] == if t.id == id then 0 else multiset(old(transactions))[t]
      ensures IsSubsequence(transactions, old(transactions))
      ensures !HasId(old(transactions), id) ==> transactions == old(transactions)
      ensures saved == Some(transactions)
      ensures filteredTransactions == if allTransactionsOpen then transactions else old(filteredTransactions)
      ensures unchanged(this`filterCategory, this`allTransactionsOpen, this`currentDate,
                        this`editingTransactionId, this`amountField, this`editAmountField)
    {
      DeleteRemovesExactlyThatId(transactions, id);
      if !HasId(transactions, id) {
        DeleteAbsentIsIdentity(transactions, id);
      }
      transactions := DeleteById(transactions, id);
      SaveTransactions();
      RefreshOpenList();
    }

    /** `openEditModal(id)`: for the first record with the id, put its amount
        in the edit input and remember the id; nothing happens when no record
        has it. */
    method OpenEditModal(id: int)
      modifies this
      ensures !HasId(transactions, id) ==> unchanged(this)
      ensures HasId(transactions, id) ==>
        && editingTransactionId == Some(id)
        && exists i :: 0 <= i < |transactions| && transactions[i].id == id
             && (forall j :: 0 <= j < i ==> transactions[j].id != id)
             && GetNumericValue(editAmountField) == transactions[i].amount
      ensures unchanged(this`transactions, this`filteredTransactions, this`filterCategory,
                        this`allTransactionsOpen, this`currentDate, this`amountField, this`saved)
    {
      var idx := FindIndex(transactions, id);
      if idx == -1 {
        return;
      }
      var amount := transactions[idx].amount;
      editAmountField := AmountField(NatToString(amount), NatToString(amount));
      EditFieldReadsBack(amount);
      editingTransactionId := Some(id);
    }

    /** The edit form's amount input after a keystroke (`formatAmountInput`
        as written). */
    method InputEditAmount(text: string)
      modifies this`editAmountField
      ensures editAmountField == FormatAmountInput(text)
      ensures ParseDigits(KeepDigits(text)) <= MAX_SAFE_INTEGER ==>
        GetNumericValue(editAmountField) == if KeepDigits(text) == "" then 0 else ParseDigits(KeepDigits(text))
    {
      editAmountField := FormatAmountInput(text);
      if ParseDigits(KeepDigits(text)) <= MAX_SAFE_INTEGER {
        ReadsTypedNumber(text);
      }
    }

    /** `closeEditModal()`. */
    method CloseEditModal()
      modifies this`editingTransactionId, this`editAmountField
      ensures editingTransactionId == None && editAmountField == EMPTY_FIELD
    {
      editingTransactionId := None;
      editAmountField := EMPTY_FIELD;
    }

    /** `handleEditFormSubmit`: when the remembered id is held by a record,
        the first such record takes the amount from the edit input and the
        form's category, description and date, keeping its id and timestamp;
        the log is saved, the form closed, the open list refreshed. With no
        id remembered, or none held, nothing changes. */
    method HandleEditFormSubmit(category: string, description: string, date: string)
      requires Valid()
      modifies this
      ensures Valid()
      ensures old(editingTransactionId).None? ==> unchanged(this)
      ensures old(editingTransactionId).Some? && !HasId(old(transactions), old(editingTransactionId).value)
        ==> unchanged(this)
      ensures old(editingTransactionId).Some? && HasId(old(transactions), old(editingTransactionId).value) ==>
        && transactions == EditById(old(transactions), old(editingTransactionId).value,
                                    EditFields(GetNumericValue(old(editAmountField)), category, description, date))
        && saved == Some(transactions)
        && editingTransactionId == None && editAmountField == EMPTY_FIELD
        && filteredTransactions == (if allTransactionsOpen then transactions else old(filteredTransactions))
      ensures |transactions| == |old(transactions)|
      ensures unchanged(this`filterCategory, this`allTransactionsOpen, this`currentDate, this`amountField)
    {
      if editingTransactionId.None? {
        return;
      }
      var id := editingTransactionId.value;
      var idx := FindIndex(transactions, id);
      if idx == -1 {
        return;
      }
      var fields := EditFields(GetNumericValue(editAmountField), category, description, date);
      EditAtFirstMatch(transactions, id, fields, idx);
      StoreEdited(idx, fields);
    }

    /** The second half of `handleEditFormSubmit`: the record at `idx` takes
        the new fields, the log is saved, the edit form closed and the open
        list refreshed. */
    method StoreEdited(idx: nat, fields: EditFields)
      requires Valid() && idx < |transactions|
      modifies this
      ensures Valid()
      ensures transactions == old(transactions)[idx := Edited(old(transactions)[idx], fields)]
      ensures saved == Some(transactions)
      ensures editingTransactionId == None && editAmountField == EMPTY_FIELD
      ensures filteredTransactions == (if allTransactionsOpen then transactions else old(filteredTransactions))
      ensures unchanged(this`filterCategory, this`allTransactionsOpen, this`currentDate, this`amountField)
    {
      transactions := transactions[idx := Edited(transactions[idx], fields)];
      SaveTransactions();
      CloseEditModal();
      RefreshOpenList();
    }

    /** `confirmReset()`: the log is emptied and saved. */
    method ConfirmReset()
      requires Valid()
      modifies this
      ensures Valid()
      ensures transactions == [] && saved == Some([])
      ensures filteredTransactions == if allTransactionsOpen then [] else old(filteredTransactions)
      ensures unchanged(this`filterCategory, this`allTransactionsOpen, this`currentDate,
                        this`editingTransactionId, this`amountField, this`editAmountField)
    {
      transactions := [];
      SaveTransactions();
      RefreshOpenList();
    }

    // -------------------------------------------------------------------------
    // The list of all transactions
    // -------------------------------------------------------------------------

    /** `openAllTransactionsModal()`. */
    method OpenAllTransactionsModal()
      requires Valid()
      modifies this`allTransactionsOpen, this`filteredTransactions
      ensures Valid()
      ensures allTransactionsOpen && filteredTransactions == transactions
    {
      allTransactionsOpen := true;
      RenderAllTransactions();
    }

    /** `closeAllTransactionsModal()`: the list and the selection are cleared. */
    method CloseAllTransactionsModal()
      requires Valid()
      modifies this`allTransactionsOpen, this`filteredTransactions, this`filterCategory
      ensures Valid()
      ensures !allTransactionsOpen && filteredTransactions == [] && filterCategory == ""
    {
      allTransactionsOpen := false;
      filteredTransactions := [];
      filterCategory := "";
    }

    /** `filterTransactions()` after `selected` is chosen: the whole log for
        the empty selection, otherwise the records of that category, in log
        order. */
    method FilterTransactions(selected: string)
      requires Valid()
      modifies this`filteredTransactions, this`filterCategory
      ensures Valid()
      ensures filterCategory == selected
      ensures filteredTransactions == FilterByCategory(transactions, selected)
      ensures selected == "" ==> filteredTransactions == transactions
      ensures selected != "" ==> forall t ::
        multiset(filteredTransactions)[t] == if t.category == selected then multiset(transactions)[t] else 0
      ensures IsSubsequence(filteredTransactions, transactions)
      ensures |filteredTransactions| <= |transactions|
    {
      filterCategory := selected;
      filteredTransactions := FilterByCategory(transactions, selected);
      FilterByCategoryExactly(transactions, selected);
    }

    /** `resetFilter()`: the selection is cleared and the whole log shown. */
    method ResetFilter()
      requires Valid()
      modifies this`filteredTransactions, this`filterCategory
      ensures Valid()
      ensures filterCategory == "" && filteredTransactions == transactions
    {
      filterCategory := "";
      RenderAllTransactions();
    }

    // -------------------------------------------------------------------------
    // The calendar
    // -------------------------------------------------------------------------

    /** `navigateMonth(direction)`: `setMonth(getMonth() + direction)` on the
        date in view, which keeps its day of the month, then
        `renderCalendar()`. */
    method NavigateMonth(direction: int, today: Date) returns (cells: seq<Cell>)
      requires Valid() && today.Valid()
      modifies this`currentDate
      ensures Valid()
      ensures currentDate == SetMonth(old(currentDate), old(currentDate).month - 1 + direction)
      ensures var m0 := old(currentDate).month - 1 + direction;
        var y, m := old(currentDate).year + m0 / 12, m0 % 12 + 1;
        old(currentDate).day <= DaysInMonth(y, m) ==>
          currentDate == Date(y, m, old(currentDate).day)
          && MonthIndex(currentDate) == MonthIndex(old(currentDate)) + direction
      ensures |cells| == GRID_CELLS
      ensures forall k :: 0 <= k < |cells| ==> CellShows(cells[k], k, currentDate, transactions, today)
    {
      NavigateMonthKeepsDay(currentDate, direction);
      currentDate := NavigateMonthAsWritten(currentDate, direction);
      cells := RenderCalendar(transactions, currentDate, today);
    }

    /** `openCalendarModal()`: the calendar for the month in view. */
    method OpenCalendarModal(today: Date) returns (cells: seq<Cell>)
      requires Valid() && today.Valid()
      ensures |cells| == GRID_CELLS
      ensures forall k :: 0 <= k < |cells| ==> CellShows(cells[k], k, currentDate, transactions, today)
    {
      cells := RenderCalendar(transactions, currentDate, today);
    }
  }
}

=== FILE: calendar.dfy ===
/** The month calendar (`renderCalendar`): a grid of 42 day cells, six weeks
    starting on the Sunday on or before the first of the viewed month, each
    cell marked when it is today, when it lies outside the viewed month and
    when records are dated on it. */
module Calendar {
  import opened Text
  import opened CivilDates
  import opened IsoDates
  import opened Ledger

  /** The number of cells the grid always shows. */
  const GRID_CELLS: nat := 42

  /** One cell of the grid, as `renderCalendar` fills its element: the date,
      its `YYYY-MM-DD` text, the day number shown, the three CSS marks, and
      the count and sum behind the `has-expenses` tooltip. */
  datatype Cell = Cell(
    date: Date,
    dateString: string,
    dayLabel: int,
    otherMonth: bool,
    isToday: bool,
    hasExpenses: bool,
    count: nat,
    total: nat)

  // ---------------------------------------------------------------------------
  // The grid's dates
  // ---------------------------------------------------------------------------

  /** `new Date(year, month, 1)` for the viewed month. */
  function FirstOfMonth(view: Date): (r: Date)
    requires view.Valid()
    ensures r.Valid() && r.year == view.year && r.month == view.month && r.day == 1
  {
    Date(view.year, view.month, 1)
  }

  /** `startDate.setDate(startDate.getDate() - firstDay.getDay())`: the first
      cell's date. */
  function GridStart(view: Date): (r: Date)
    requires view.Valid()
    ensures r.Valid()
  {
    var first := FirstOfMonth(view);
    SetDate(first, first.day - Weekday(first))
  }

  /** The grid starts on a Sunday, `getDay()` of the first of the month days
      before it. */
  lemma GridStartIsSunday(view: Date)
    requires view.Valid()
    ensures Weekday(GridStart(view)) == 0
    ensures DayNumber(GridStart(view)) == DayNumber(FirstOfMonth(view)) - Weekday(FirstOfMonth(view))
  {
    var first := FirstOfMonth(view);
    var n := DayNumber(first);
    var w := Weekday(first);
    assert DayNumber(GridStart(view)) == n - w;
    RemainderRemoved(n);
  }

  lemma RemainderRemoved(n: int)
    ensures (n - n % 7) % 7 == 0
  {
    assert n - n % 7 == 7 * (n / 7);
  }

  /** A date lies in month `m` of year `y` exactly when its day number falls
      between the first and the last day of that month. */
  lemma InMonthByDayNumber(x: Date, y: int, m: int)
    requires x.Valid() && 1 <= m <= 12
    ensures Date(y, m, 1).Valid()
    ensures x.year == y && x.month == m
        <==> DayNumber(Date(y, m, 1)) <= DayNumber(x) < DayNumber(Date(y, m, 1)) + DaysInMonth(y, m)
  {
    var first := Date(y, m, 1);
    DayOfMonth(y, m, 1);
    if x.year == y && x.month == m {
      DayOfMonth(y, m, x.day);
    }
    var k := DayNumber(x) - DayNumber(first) + 1;
    if 1 <= k <= DaysInMonth(y, m) {
      DayOfMonth(y, m, k);
      DayNumberOrder(x, Date(y, m, k));
    }
  }

  /** The six weeks hold the whole viewed month: the day `d` of the month is
      cell `w + d - 1`, where `w` is the weekday of the first, and the cells in
      the month are exactly those from `w` to `w + DaysInMonth - 1`. */
  lemma GridShowsWholeMonth(view: Date, k: nat)
    requires view.Valid() && k < GRID_CELLS
    ensures Weekday(FirstOfMonth(view)) + DaysInMonth(view.year, view.month) <= GRID_CELLS
    ensures var w := Weekday(FirstOfMonth(view));
      var x := AddDays(GridStart(view), k);
      (x.year == view.year && x.month == view.month <==> w <= k < w + DaysInMonth(view.year, view.month))
      && (w <= k < w + DaysInMonth(view.year, view.month) ==> x == Date(view.year, view.month, k - w + 1))
  {
    var first := FirstOfMonth(view);
    var w := Weekday(first);
    var x := AddDays(GridStart(view), k);
    GridStartIsSunday(view);
    assert DayNumber(x) == DayNumber(first) - w + k;
    InMonthByDayNumber(x, view.year, view.month);
    if w <= k < w + DaysInMonth(view.year, view.month) {
      DayOfMonth(view.year, view.month, k - w + 1);
      DayNumberOrder(x, Date(view.year, view.month, k - w + 1));
    }
  }

  // ---------------------------------------------------------------------------
  // The other-month mark
  // ---------------------------------------------------------------------------

  /** A JavaScript value as far as `!==` needs it. */
  datatype JsValue = Number(n: int) | Str(s: string)

  /** Strict inequality: values of different types are always unequal. */
  predicate StrictNotEquals(a: JsValue, b: JsValue) {
    match (a, b)
    case (Number(x), Number(y)) => x != y
    case (Str(x), Str(y)) => x != y
    case _ => true
  }

  /** The mark as the loop computes it: inside the loop `month` is the
      block-scoped padded month text of the cell, so `getMonth()` (a number)
      is compared with a string. */
  function OtherMonthAsWritten(cellDate: Date): bool
    requires cellDate.Valid()
  {
    StrictNotEquals(Number(cellDate.month - 1), Str(PadStart2(NatToString(cellDate.month))))
  }

  /** As written, every cell is marked, including every day of the viewed
      month: the first of the month is marked too. */
  lemma OtherMonthAsWrittenMarksEveryCell(view: Date, k: nat)
    requires view.Valid() && k < GRID_CELLS
    ensures OtherMonthAsWritten(AddDays(GridStart(view), k))
    ensures OtherMonthAsWritten(FirstOfMonth(view))
  {
  }

  /** The mark as intended: the cell's month differs from the viewed month. */
  function OtherMonth(cellDate: Date, view: Date): (r: bool)
    requires cellDate.Valid() && view.Valid()
  {
    !(cellDate.year == view.year && cellDate.month == view.month)
  }

  /** Exactly the cells before the first and after the last of the month are
      marked. */
  lemma OtherMonthMarksOutsideCells(view: Date, k: nat)
    requires view.Valid() && k < GRID_CELLS
    ensures var w := Weekday(FirstOfMonth(view));
      OtherMonth(AddDays(GridStart(view), k), view) <==> k < w || w + DaysInMonth(view.year, view.month) <= k
  {
    GridShowsWholeMonth(view, k);
  }

  // ---------------------------------------------------------------------------
  // Moving between months
  // ---------------------------------------------------------------------------

  /** Months counted from year 0: consecutive months have consecutive
      indices. */
  function MonthIndex(d: Date): int {
    12 * d.year + d.month - 1
  }

  /** `navigateMonth(direction)` as written:
      `currentDate.setMonth(currentDate.getMonth() + direction)`, which keeps
      the day of the month and lets it overflow. */
  function NavigateMonthAsWritten(d: Date, direction: int): (r: Date)
    requires d.Valid()
    ensures r.Valid()
  {
    SetMonth(d, d.month - 1 + direction)
  }

  /** As written, "next month" from the 31st of January of any year shows
      March: February 31st overflows to March 2nd or 3rd. */
  lemma NextFromJanuary31SkipsFebruary(y: int)
    ensures Date(y, 1, 31).Valid()
    ensures NavigateMonthAsWritten(Date(y, 1, 31), 1) == Date(y, 3, 31 - DaysInMonth(y, 2))
    ensures MonthIndex(NavigateMonthAsWritten(Date(y, 1, 31), 1)) == MonthIndex(Date(y, 1, 31)) + 2
  {
    var r := NavigateMonthAsWritten(Date(y, 1, 31), 1);
    var k := 31 - DaysInMonth(y, 2);
    assert DayNumber(r) == DayNumber(Date(y, 2, 1)) + 30;
    DaysBeforeMonthStep(y, 2);
    DayOfMonth(y, 3, k);
    assert DayNumber(Date(y, 3, 1)) == DayNumber(Date(y, 2, 1)) + DaysInMonth(y, 2);
    DayNumberOrder(r, Date(y, 3, k));
  }

  /** As written, navigation lands in the month `direction` months away, on
      the same day, whenever that month has the day; otherwise it overflows. */
  lemma NavigateMonthKeepsDay(d: Date, direction: int)
    requires d.Valid()
    ensures var m0 := d.month - 1 + direction;
      var y, m := d.year + m0 / 12, m0 % 12 + 1;
      d.day <= DaysInMonth(y, m) <==> NavigateMonthAsWritten(d, direction) == Date(y, m, d.day)
  {
    var m0 := d.month - 1 + direction;
    var y, m := d.year + m0 / 12, m0 % 12 + 1;
    var r := NavigateMonthAsWritten(d, direction);
    if d.day <= DaysInMonth(y, m) {
      DayOfMonth(y, m, d.day);
      DayNumberOrder(r, Date(y, m, d.day));
    }
  }

  /** `navigateMonth(direction)` as intended: the first of the month
      `direction` months away. */
  function ShiftMonth(d: Date, direction: int): (r: Date)
    requires d.Valid()
    ensures r.Valid() && r.day == 1
    ensures MonthIndex(r) == MonthIndex(d) + direction
  {
    var m0 := d.month - 1 + direction;
    Date(d.year + m0 / 12, m0 % 12 + 1, 1)
  }

  /** Going forward and back again returns to the first of the month. */
  lemma ShiftMonthRoundTrip(d: Date, direction: int)
    requires d.Valid()
    ensures ShiftMonth(ShiftMonth(d, direction), -direction) == FirstOfMonth(d)
  {
    var r := ShiftMonth(ShiftMonth(d, direction), -direction);
    MonthIndexDetermines(r, FirstOfMonth(d));
  }

  /** Two firsts of a month with the same month index are the same date. */
  lemma MonthIndexDetermines(a: Date, b: Date)
    requires a.day == 1 && b.day == 1 && 1 <= a.month <= 12 && 1 <= b.month <= 12
    requires MonthIndex(a) == MonthIndex(b)
    ensures a == b
  {
  }

  // ---------------------------------------------------------------------------
  // Rendering
  // ---------------------------------------------------------------------------

  /** What cell `k` of the grid for `view` shows, given the log and today's
      date. */
  ghost predicate CellShows(c: Cell, k: nat, view: Date, log: seq<Transaction>, today: Date)
    requires view.Valid()
  {
    && c.date.Valid()
    && DayNumber(c.date) == DayNumber(GridStart(view)) + k
    && c.dateString == ToIsoString(c.date)
    && c.dayLabel == c.date.day
    && c.otherMonth == OtherMonthAsWritten(c.date)
    && (today.Valid() ==> (c.isToday <==> c.date == today))
    && (c.hasExpenses <==> exists t :: t in log && t.date == c.dateString)
    && c.count == |GetTransactionsByDate(log, c.dateString)|
    && c.total == Total(GetTransactionsByDate(log, c.dateString))
  }

  /** Builds the 42 cells for the month of `view`. The clock is a parameter:
      `today` is the local date at the time of the call. */
  method RenderCalendar(log: seq<Transaction>, view: Date, today: Date) returns (cells: seq<Cell>)
    requires view.Valid() && today.Valid()
    ensures |cells| == GRID_CELLS
    ensures forall k :: 0 <= k < |cells| ==> CellShows(cells[k], k, view, log, today)
    ensures forall k :: 0 <= k < |cells| ==> cells[k].otherMonth
  {
    var startDate := GridStart(view);
    var todayText := ToIsoString(today);
    cells := [];
    for i := 0 to GRID_CELLS
      invariant |cells| == i
      invariant forall k :: 0 <= k < i ==> CellShows(cells[k], k, view, log, today)
      invariant forall k :: 0 <= k < i ==> cells[k].otherMonth
    {
      var current := AddDays(startDate, i);
      var dateString := ToIsoString(current);
      var dayTransactions := GetTransactionsByDate(log, dateString);
      var cell := Cell(
        current,
        dateString,
        current.day,
        OtherMonthAsWritten(current),
        dateString == todayText,
        |dayTransactions| > 0,
        |dayTransactions|,
        Total(dayTransactions));
      if dateString == todayText {
        IsoStringInjective(current, today);
      }
      FilterNonEmpty(log, DateIs(dateString));
      cells := cells + [cell];
    }
  }

  /** Today is marked on at most one cell: the cells hold different dates. */
  lemma TodayMarkedAtMostOnce(cells: seq<Cell>, view: Date, log: seq<Transaction>, today: Date, i: nat, j: nat)
    requires view.Valid() && today.Valid()
    requires forall k :: 0 <= k < |cells| ==> CellShows(cells[k], k, view, log, today)
    requires i < j < |cells|
    ensures !(cells[i].isToday && cells[j].isToday)
  {
    assert CellShows(cells[i], i, view, log, today) && CellShows(cells[j], j, view, log, today);
  }

  /** Each day of the viewed month appears in cell `w + day - 1`. The intended
      mark leaves it unmarked; as written it is marked `other-month` like
      every other cell. */
  lemma CellsOfTheMonth(cells: seq<Cell>, view: Date, log: seq<Transaction>, today: Date, day: int)
    requires view.Valid() && today.Valid() && |cells| == GRID_CELLS
    requires forall k :: 0 <= k < |cells| ==> CellShows(cells[k], k, view, log, today)
    requires 1 <= day <= DaysInMonth(view.year, view.month)
    ensures var k := Weekday(FirstOfMonth(view)) + day - 1;
      && 0 <= k < GRID_CELLS
      && cells[k].date == Date(view.year, view.month, day)
      && !OtherMonth(cells[k].date, view)
      && cells[k].otherMonth
  {
    var w := Weekday(FirstOfMonth(view));
    var k := w + day - 1;
    GridShowsWholeMonth(view, k);
    var x := AddDays(GridStart(view), k);
    assert x == Date(view.year, view.month, day);
    assert CellShows(cells[k], k, view, log, today);
    assert DayNumber(cells[k].date) == DayNumber(x);
    DayNumberOrder(cells[k].date, x);
  }
}

=== FILE: categories.dfy ===
/** The two lookup tables keyed by a transaction's stored category
    (`makanan`, `transport`, `belanja`, `hiburan`, `kesehatan`, `pendidikan`,
    `lainnya`): its display name and its icon markup. A category outside the
    table falls back to the entry for `lainnya` ("other"). */
module Categories {

  const CATEGORY_KEYS: set<string> :=
    {"makanan", "transport", "belanja", "hiburan", "kesehatan", "pendidikan", "lainnya"}

  const CATEGORY_NAMES: set<string> :=
    {"Makanan & Minuman", "Transportasi", "Belanja", "Hiburan", "Kesehatan", "Pendidikan", "Lainnya"}

  const OTHER_NAME: string := "Lainnya"

  /** `getCategoryName(category)`: `names[category] || 'Lainnya'`. */
  function CategoryName(category: string): (name: string)
    ensures name in CATEGORY_NAMES
    ensures name == OTHER_NAME <==> category == "lainnya" || category !in CATEGORY_KEYS
  {
    if category == "makanan" then "Makanan & Minuman"
    else if category == "transport" then "Transportasi"
    else if category == "belanja" then "Belanja"
    else if category == "hiburan" then "Hiburan"
    else if category == "kesehatan" then "Kesehatan"
    else if category == "pendidikan" then "Pendidikan"
    else OTHER_NAME
  }

  /** `getCategoryIcon(category)`: `icons[category] || icons.lainnya`. */
  function CategoryIcon(category: string): string {
    if category == "makanan" then "<i class=\"fas fa-utensils\"></i>"
    else if category == "transport" then "<i class=\"fas fa-car\"></i>"
    else if category == "belanja" then "<i class=\"fas fa-shopping-bag\"></i>"
    else if category == "hiburan" then "<i class=\"fas fa-gamepad\"></i>"
    else if category == "kesehatan" then "<i class=\"fas fa-heartbeat\"></i>"
    else if category == "pendidikan" then "<i class=\"fas fa-graduation-cap\"></i>"
    else "<i class=\"fas fa-ellipsis-h\"></i>"
  }

  /** The name table gives each of its seven keys its own name. */
  lemma CategoryNamesDistinct(a: string, b: string)
    requires a in CATEGORY_KEYS && b in CATEGORY_KEYS && a != b
    ensures CategoryName(a) != CategoryName(b)
  {
  }

  /** The icon table falls back exactly where the name table does: both
      tables agree on which categories are "other". */
  lemma IconFallbackMatchesNameFallback(category: string)
    ensures CategoryIcon(category) == CategoryIcon("lainnya") <==> CategoryName(category) == OTHER_NAME
  {
    var other := CategoryIcon("lainnya");
    if category == "makanan" || category == "transport" || category == "belanja"
       || category == "hiburan" || category == "kesehatan" || category == "pendidikan" {
      assert |CategoryIcon(category)| != |other|;
    } else {
      assert CategoryIcon(category) == other;
    }
  }
}

=== FILE: chart.dfy ===
/** The data behind the spending chart (`updateChart`): the records dated from
    the month start to today, grouped by category display name. The keys keep
    the order in which a name is first met, as a JavaScript object's string
    keys do. */
module Chart {
  import opened CivilDates
  import opened IsoDates
  import opened Categories
  import opened Ledger

  predicate NoDuplicates(s: seq<string>) {
    forall i, j :: 0 <= i < j < |s| ==> s[i] != s[j]
  }

  function Get(data: map<string, nat>, key: string): nat {
    if key in data then data[key] else 0
  }

  /** The chart's values, `Object.values(categoryData)`, added up in key order. */
  function SumValues(keys: seq<string>, data: map<string, nat>): nat {
    if keys == [] then 0 else Get(data, keys[0]) + SumValues(keys[1..], data)
  }

  lemma {:induction false} SumValuesAppend(keys: seq<string>, key: string, data: map<string, nat>)
    ensures SumValues(keys + [key], data) == SumValues(keys, data) + Get(data, key)
    decreases |keys|
  {
    if keys == [] {
      assert keys + [key] == [key];
    } else {
      assert (keys + [key])[1..] == keys[1..] + [key];
      SumValuesAppend(keys[1..], key, data);
    }
  }

  lemma {:induction false} SumValuesUpdate(keys: seq<string>, key: string, v: nat, data: map<string, nat>)
    requires NoDuplicates(keys)
    ensures key !in keys ==> SumValues(keys, data[key := v]) == SumValues(keys, data)
    ensures key in keys ==> SumValues(keys, data[key := v]) + Get(data, key) == SumValues(keys, data) + v
    decreases |keys|
  {
    if keys != [] {
      assert NoDuplicates(keys[1..]) by {
        forall i, j | 0 <= i < j < |keys[1..]| ensures keys[1..][i] != keys[1..][j] {
          assert keys[1..][i] == keys[i + 1] && keys[1..][j] == keys[j + 1];
        }
      }
      SumValuesUpdate(keys[1..], key, v, data);
      if keys[0] == key {
        assert key !in keys[1..] by {
          forall j | 0 <= j < |keys[1..]| ensures keys[1..][j] != key {
            assert keys[1..][j] == keys[j + 1];
          }
        }
      }
      assert key in keys <==> key == keys[0] || key in keys[1..];
    }
  }

  /** The labels are the map's keys, each once. */
  ghost predicate LabelsAreKeys(labels: seq<string>, data: map<string, nat>) {
    NoDuplicates(labels) && forall name :: name in data <==> name in labels
  }

  /** The display names of the records in `log`. */
  function NamesOf(log: seq<Transaction>): set<string> {
    if log == [] then {} else {CategoryName(log[0].category)} + NamesOf(log[1..])
  }

  /** A name is among `NamesOf(log)` exactly when some record of `log` has it,
      and every such name is one of the seven display names. */
  lemma {:induction false} NamesOfExactly(log: seq<Transaction>)
    ensures forall name :: name in NamesOf(log) <==> exists t :: t in log && CategoryName(t.category) == name
    ensures NamesOf(log) <= CATEGORY_NAMES
    decreases |log|
  {
    if log != [] {
      NamesOfExactly(log[1..]);
      assert forall t :: t in log <==> t == log[0] || t in log[1..];
    }
  }

  lemma {:induction false} NamesOfAppend(log: seq<Transaction>, t: Transaction)
    ensures NamesOf(log + [t]) == NamesOf(log) + {CategoryName(t.category)}
    decreases |log|
  {
    if log == [] {
      assert log + [t] == [t];
    } else {
      assert (log + [t])[1..] == log[1..] + [t];
      NamesOfAppend(log[1..], t);
    }
  }

  /** The keys are the display names of the records in `seen`. */
  ghost predicate KeysAreNamesSeen(seen: seq<Transaction>, data: map<string, nat>) {
    data.Keys == NamesOf(seen)
  }

  /** Each key maps to the sum of the amounts of the records with that name. */
  ghost predicate ValuesAreSums(seen: seq<Transaction>, data: map<string, nat>) {
    forall name :: name in data ==> data[name] == Total(Filter(seen, CategoryNameIs(name)))
  }

  lemma LabelsStep(g: Grouping, t: Transaction)
    requires LabelsAreKeys(g.labels, g.data)
    ensures LabelsAreKeys(AddRecord(g, t).labels, AddRecord(g, t).data)
  {
  }

  lemma KeysStep(seen: seq<Transaction>, t: Transaction, g: Grouping)
    requires KeysAreNamesSeen(seen, g.data)
    ensures KeysAreNamesSeen(seen + [t], AddRecord(g, t).data)
  {
    NamesOfAppend(seen, t);
  }

  /** Adding one record changes the sum for a name by that record's amount
      when the record has the name, and not at all otherwise. */
  lemma NameSumStep(seen: seq<Transaction>, t: Transaction, name: string)
    ensures Total(Filter(seen + [t], CategoryNameIs(name)))
         == Total(Filter(seen, CategoryNameIs(name))) + (if CategoryName(t.category) == name then t.amount else 0)
  {
    FilterAppend(seen, [t], CategoryNameIs(name));
    TotalAppend(Filter(seen, CategoryNameIs(name)), Filter([t], CategoryNameIs(name)));
    assert Filter([t], CategoryNameIs(name)) == (if CategoryName(t.category) == name then [t] else []);
  }

  /** A name no record of `seen` has sums to nothing. */
  lemma {:induction false} NameSumUnseen(seen: seq<Transaction>, name: string)
    requires name !in NamesOf(seen)
    ensures Filter(seen, CategoryNameIs(name)) == []
    decreases |seen|
  {
    if seen != [] {
      NameSumUnseen(seen[1..], name);
    }
  }

  lemma ValuesStep(seen: seq<Transaction>, t: Transaction, g: Grouping)
    requires KeysAreNamesSeen(seen, g.data) && ValuesAreSums(seen, g.data)
    ensures ValuesAreSums(seen + [t], AddRecord(g, t).data)
  {
    var data := g.data;
    var data' := AddRecord(g, t).data;
    forall other | other in data'
      ensures data'[other] == Total(Filter(seen + [t], CategoryNameIs(other)))
    {
      NameSumStep(seen, t, other);
      if other !in data {
        NameSumUnseen(seen, other);
      }
    }
  }

  /** Adding one record to the grouping adds its amount to the values' sum. */
  lemma SumStep(g: Grouping, t: Transaction)
    requires LabelsAreKeys(g.labels, g.data)
    ensures SumValues(AddRecord(g, t).labels, AddRecord(g, t).data) == SumValues(g.labels, g.data) + t.amount
  {
    var labels, data, name := g.labels, g.data, CategoryName(t.category);
    var v := Get(data, name) + t.amount;
    SumValuesUpdate(labels, name, v, data);
    if name !in data {
      assert name !in labels;
      SumValuesAppend(labels, name, data[name := v]);
    } else {
      assert name in labels;
    }
  }

  lemma TotalOfLast(seen: seq<Transaction>)
    requires seen != []
    ensures Total(seen) == Total(seen[..|seen| - 1]) + seen[|seen| - 1].amount
  {
    var prefix, t := seen[..|seen| - 1], seen[|seen| - 1];
    assert prefix + [t] == seen;
    TotalAppend(prefix, [t]);
    assert Total([t]) == t.amount;
  }

  /** The chart's grouping so far: the labels in first-seen order and the
      per-name sums. */
  datatype Grouping = Grouping(labels: seq<string>, data: map<string, nat>)

  /** One step of the `forEach`: add the record's amount under its display
      name, appending the name to the labels when it is new. */
  function AddRecord(g: Grouping, t: Transaction): Grouping {
    var name := CategoryName(t.category);
    Grouping(if name in g.data then g.labels else g.labels + [name],
             g.data[name := Get(g.data, name) + t.amount])
  }

  /** The grouping after the `forEach` has gone through `seen` in order. */
  function Group(seen: seq<Transaction>): Grouping {
    if seen == [] then Grouping([], map[])
    else AddRecord(Group(seen[..|seen| - 1]), seen[|seen| - 1])
  }

  /** The labels of the grouping are its keys, each once. */
  lemma {:induction false} GroupLabelsAreKeys(seen: seq<Transaction>)
    ensures LabelsAreKeys(Group(seen).labels, Group(seen).data)
    decreases |seen|
  {
    if seen != [] {
      var prefix, t := seen[..|seen| - 1], seen[|seen| - 1];
      GroupLabelsAreKeys(prefix);
      LabelsStep(Group(prefix), t);
    }
  }

  /** The keys of the grouping are the display names of the records seen. */
  lemma {:induction false} GroupKeysAreNamesSeen(seen: seq<Transaction>)
    ensures KeysAreNamesSeen(seen, Group(seen).data)
    decreases |seen|
  {
    if seen != [] {
      var prefix, t := seen[..|seen| - 1], seen[|seen| - 1];
      assert prefix + [t] == seen;
      GroupKeysAreNamesSeen(prefix);
      KeysStep(prefix, t, Group(prefix));
    }
  }

  /** Each key of the grouping holds the sum of the amounts of the records
      with that display name. */
  lemma {:induction false} GroupValuesAreSums(seen: seq<Transaction>)
    ensures ValuesAreSums(seen, Group(seen).data)
    decreases |seen|
  {
    if seen != [] {
      var prefix, t := seen[..|seen| - 1], seen[|seen| - 1];
      assert prefix + [t] == seen;
      GroupKeysAreNamesSeen(prefix);
      GroupValuesAreSums(prefix);
      ValuesStep(prefix, t, Group(prefix));
    }
  }

  /** The values of the grouping, added up in label order, give the total of
      the records seen. */
  lemma {:induction false} GroupSumIsTotal(seen: seq<Transaction>)
    ensures SumValues(Group(seen).labels, Group(seen).data) == Total(seen)
    decreases |seen|
  {
    if seen != [] {
      var prefix, t := seen[..|seen| - 1], seen[|seen| - 1];
      GroupLabelsAreKeys(prefix);
      GroupSumIsTotal(prefix);
      SumStep(Group(prefix), t);
      TotalOfLast(seen);
    }
  }

  lemma GroupOneMore(records: seq<Transaction>, i: nat)
    requires i < |records|
    ensures Group(records[..i + 1]) == AddRecord(Group(records[..i]), records[i])
  {
    assert records[..i + 1][..i] == records[..i];
  }

  /** The body of the `forEach`: `categoryData[category]` starts at 0 the
      first time a name is met, which appends the name to the keys, and then
      grows by the record's amount. */
  method AddToGroup(labels: seq<string>, categoryData: map<string, nat>, t: Transaction)
    returns (labels': seq<string>, categoryData': map<string, nat>)
    ensures Grouping(labels', categoryData') == AddRecord(Grouping(labels, categoryData), t)
  {
    var category := CategoryName(t.category);
    var previous := Get(categoryData, category);
    labels' := labels;
    if category !in categoryData {
      labels' := labels + [category];
    }
    categoryData' := categoryData[category := previous + t.amount];
  }

  /** The `forEach` of `updateChart`: goes through `records` in order,
      adding each amount under its display name. */
  method GroupByName(records: seq<Transaction>) returns (labels: seq<string>, categoryData: map<string, nat>)
    ensures Grouping(labels, categoryData) == Group(records)
  {
    labels, categoryData := [], map[];
    var i := 0;
    while i < |records|
      invariant 0 <= i <= |records|
      invariant Grouping(labels, categoryData) == Group(records[..i])
    {
      GroupOneMore(records, i);
      labels, categoryData := AddToGroup(labels, categoryData, records[i]);
      i := i + 1;
    }
    assert records[..i] == records;
  }

  /** Groups the month-to-date records by display name. Returns the chart's
      labels (`Object.keys(categoryData)`) and the per-name sums. The clock is
      two parameters, as the source reads it twice: `now` is the local date
      behind `getMonthStart()`, and `today` is the UTC date text of
      `new Date().toISOString()`. */
  method UpdateChart(log: seq<Transaction>, now: Date, today: string)
    returns (labels: seq<string>, categoryData: map<string, nat>)
    requires now.Valid()
    ensures Grouping(labels, categoryData) == Group(Filter(log, DateBetween(GetMonthStart(now), today)))
    ensures NoDuplicates(labels)
    ensures forall name :: name in categoryData <==> name in labels
    ensures categoryData.Keys == NamesOf(Filter(log, DateBetween(GetMonthStart(now), today)))
    ensures forall name :: name in categoryData ==>
      categoryData[name] == Total(Filter(Filter(log, DateBetween(GetMonthStart(now), today)), CategoryNameIs(name)))
    ensures SumValues(labels, categoryData) == GetTotalByDateRange(log, GetMonthStart(now), today)
  {
    var monthStart := GetMonthStart(now);
    var monthTransactions := Filter(log, DateBetween(monthStart, today));
    labels, categoryData := GroupByName(monthTransactions);
    GroupLabelsAreKeys(monthTransactions);
    GroupKeysAreNamesSeen(monthTransactions);
    GroupValuesAreSums(monthTransactions);
    GroupSumIsTotal(monthTransactions);
  }
}

=== FILE: civil_dates.dfy ===
/** Calendar dates as JavaScript's `Date` treats them in local time, with the
    time of day left out: the proleptic Gregorian calendar over every integer
    year, months numbered 1..12 (JavaScript's `getMonth()` is this minus one),
    day numbers, weekdays with Sunday = 0 as `getDay()` gives them, and the
    overflowing setters `setDate` and `setMonth`. */
module CivilDates {

  datatype Date = Date(year: int, month: int, day: int) {
    predicate Valid() {
      1 <= month <= 12 && 1 <= day <= DaysInMonth(year, month)
    }
  }

  predicate IsLeapYear(y: int) {
    y % 4 == 0 && (y % 100 != 0 || y % 400 == 0)
  }

  function DaysInMonth(y: int, m: int): (n: int)
    requires 1 <= m <= 12
    ensures 28 <= n <= 31
    ensures n == 29 <==> m == 2 && IsLeapYear(y)
  {
    if m == 2 then (if IsLeapYear(y) then 29 else 28)
    else if m == 4 || m == 6 || m == 9 || m == 11 then 30
    else 31
  }

  function DaysInYear(y: int): int {
    if IsLeapYear(y) then 366 else 365
  }

  /** Days of year `y` before the first of month `m`. */
  function DaysBeforeMonth(y: int, m: int): nat
    requires 1 <= m <= 12
  {
    var common :=
      if m == 1 then 0 else if m == 2 then 31 else if m == 3 then 59
      else if m == 4 then 90 else if m == 5 then 120 else if m == 6 then 151
      else if m == 7 then 181 else if m == 8 then 212 else if m == 9 then 243
      else if m == 10 then 273 else if m == 11 then 304 else 334;
    common + (if m > 2 && IsLeapYear(y) then 1 else 0)
  }

  /** Days from 0001-01-01 to the first of year `y` (negative before year 1). */
  function DaysBeforeYear(y: int): int
    decreases if y >= 1 then y - 1 else 1 - y
  {
    if y == 1 then 0
    else if y > 1 then DaysBeforeYear(y - 1) + DaysInYear(y - 1)
    else DaysBeforeYear(y + 1) - DaysInYear(y)
  }

  /** The day number of a date: 0001-01-01 is day 1, each day adds one. */
  function DayNumber(d: Date): int
    requires d.Valid()
  {
    DaysBeforeYear(d.year) + DaysBeforeMonth(d.year, d.month) + d.day
  }

  /** `getDay()`: 0 for Sunday through 6 for Saturday (0001-01-01 was a Monday). */
  function Weekday(d: Date): (w: int)
    requires d.Valid()
    ensures 0 <= w < 7
  {
    DayNumber(d) % 7
  }

  lemma DaysBeforeYearStep(y: int)
    ensures DaysBeforeYear(y + 1) == DaysBeforeYear(y) + DaysInYear(y)
  {
  }

  lemma DaysBeforeMonthStep(y: int, m: int)
    requires 1 <= m <= 12
    ensures m < 12 ==> DaysBeforeMonth(y, m + 1) == DaysBeforeMonth(y, m) + DaysInMonth(y, m)
    ensures m == 12 ==> DaysBeforeMonth(y, m) + DaysInMonth(y, m) == DaysInYear(y)
  {
  }

  /** The day after `d`. */
  function Next(d: Date): (r: Date)
    requires d.Valid()
    ensures r.Valid() && DayNumber(r) == DayNumber(d) + 1
  {
    DaysBeforeMonthStep(d.year, d.month);
    DaysBeforeYearStep(d.year);
    if d.day < DaysInMonth(d.year, d.month) then Date(d.year, d.month, d.day + 1)
    else if d.month < 12 then Date(d.year, d.month + 1, 1)
    else Date(d.year + 1, 1, 1)
  }

  /** The day before `d`. */
  function Prev(d: Date): (r: Date)
    requires d.Valid()
    ensures r.Valid() && DayNumber(r) == DayNumber(d) - 1
  {
    DaysBeforeYearStep(d.year - 1);
    if d.day > 1 then Date(d.year, d.month, d.day - 1)
    else if d.month > 1 then
      DaysBeforeMonthStep(d.year, d.month - 1);
      Date(d.year, d.month - 1, DaysInMonth(d.year, d.month - 1))
    else
      DaysBeforeMonthStep(d.year - 1, 12);
      Date(d.year - 1, 12, 31)
  }

  /** `k` days after `d`. */
  function AddDays(d: Date, k: nat): (r: Date)
    requires d.Valid()
    ensures r.Valid() && DayNumber(r) == DayNumber(d) + k
    decreases k
  {
    if k == 0 then d else AddDays(Next(d), k - 1)
  }

  /** `k` days before `d`. */
  function SubDays(d: Date, k: nat): (r: Date)
    requires d.Valid()
    ensures r.Valid() && DayNumber(r) == DayNumber(d) - k
    decreases k
  {
    if k == 0 then d else SubDays(Prev(d), k - 1)
  }

  /** `k` days after `d`, `k` of either sign. */
  function ShiftDays(d: Date, k: int): (r: Date)
    requires d.Valid()
    ensures r.Valid() && DayNumber(r) == DayNumber(d) + k
  {
    if k >= 0 then AddDays(d, k) else SubDays(d, -k)
  }

  /** `date.setDate(n)`: day `n` of the same month, counted on from the
      first of the month when `n` is out of range (0 is the last day of the
      previous month). */
  function SetDate(d: Date, n: int): (r: Date)
    requires d.Valid()
    ensures r.Valid() && DayNumber(r) == DayNumber(d) - d.day + n
  {
    ShiftDays(Date(d.year, d.month, 1), n - 1)
  }

  /** `date.setMonth(m0)` with JavaScript's zero-based month `m0`: the year
      absorbs whole multiples of twelve, and the old day of the month is kept,
      overflowing into the following month when the target month is shorter. */
  function SetMonth(d: Date, m0: int): (r: Date)
    requires d.Valid()
    ensures r.Valid()
    ensures DayNumber(r) == DayNumber(Date(d.year + m0 / 12, m0 % 12 + 1, 1)) + d.day - 1
  {
    ShiftDays(Date(d.year + m0 / 12, m0 % 12 + 1, 1), d.day - 1)
  }

  /** Lexicographic order on (year, month, day). */
  predicate DateLt(a: Date, b: Date) {
    a.year < b.year
    || (a.year == b.year && a.month < b.month)
    || (a.year == b.year && a.month == b.month && a.day < b.day)
  }

  lemma {:induction false} DaysBeforeYearMonotone(y1: int, y2: int)
    requires y1 < y2
    ensures DaysBeforeYear(y1) + DaysInYear(y1) <= DaysBeforeYear(y2)
    decreases y2 - y1
  {
    DaysBeforeYearStep(y1);
    if y1 + 1 < y2 {
      DaysBeforeYearMonotone(y1 + 1, y2);
    }
  }

  lemma DayNumberWithinYear(d: Date)
    requires d.Valid()
    ensures DaysBeforeYear(d.year) < DayNumber(d) <= DaysBeforeYear(d.year) + DaysInYear(d.year)
  {
  }

  lemma DaysBeforeMonthMonotone(y: int, m1: int, m2: int)
    requires 1 <= m1 < m2 <= 12
    ensures DaysBeforeMonth(y, m1) + DaysInMonth(y, m1) <= DaysBeforeMonth(y, m2)
  {
  }

  /** The day number orders dates exactly as (year, month, day) does. */
  lemma DayNumberOrder(a: Date, b: Date)
    requires a.Valid() && b.Valid()
    ensures DateLt(a, b) <==> DayNumber(a) < DayNumber(b)
    ensures a == b <==> DayNumber(a) == DayNumber(b)
  {
    DayNumberWithinYear(a);
    DayNumberWithinYear(b);
    if a.year < b.year {
      DaysBeforeYearMonotone(a.year, b.year);
    } else if b.year < a.year {
      DaysBeforeYearMonotone(b.year, a.year);
    } else if a.month < b.month {
      DaysBeforeMonthMonotone(a.year, a.month, b.month);
    } else if b.month < a.month {
      DaysBeforeMonthMonotone(a.year, b.month, a.month);
    }
  }

  /** Day `k` of a month lies `k - 1` days after its first. */
  lemma DayOfMonth(y: int, m: int, k: int)
    requires 1 <= m <= 12 && 1 <= k <= DaysInMonth(y, m)
    ensures Date(y, m, k).Valid() && Date(y, m, 1).Valid()
    ensures DayNumber(Date(y, m, k)) == DayNumber(Date(y, m, 1)) + k - 1
  {
  }
}

=== FILE: dashboard.dfy ===
/** The three totals on the dashboard (`updateDashboard`): today, this week
    (from Monday) and this month (from the 1st), each a date-range total whose
    end is today. */
module Dashboard {
  import opened Text
  import opened CivilDates
  import opened IsoDates
  import opened Ledger

  datatype Totals = Totals(todayAmount: nat, weekAmount: nat, monthAmount: nat)

  /** The clock is a parameter: `today` is the local date at the time of the call. */
  function UpdateDashboard(log: seq<Transaction>, today: Date): Totals
    requires today.Valid()
  {
    var todayText := ToIsoString(today);
    Totals(
      GetTotalByDateRange(log, todayText, todayText),
      GetTotalByDateRange(log, GetWeekStart(today), todayText),
      GetTotalByDateRange(log, GetMonthStart(today), todayText))
  }

  /** A record dated with the text of a date `x` counts towards the week's
      total exactly when `x` lies between this week's Monday and today, and
      towards the month's total exactly when `x` is in today's month, on or
      before today. */
  lemma DashboardRangesAreCalendarRanges(today: Date, x: Date)
    requires today.Valid() && x.Valid()
    requires FourDigitYear(today.year) && FourDigitYear(x.year) && FourDigitYear(WeekStartDate(today).year)
    ensures StrLe(GetWeekStart(today), ToIsoString(x)) && StrLe(ToIsoString(x), ToIsoString(today))
        <==> DayNumber(WeekStartDate(today)) <= DayNumber(x) <= DayNumber(today)
    ensures StrLe(GetMonthStart(today), ToIsoString(x)) && StrLe(ToIsoString(x), ToIsoString(today))
        <==> x.year == today.year && x.month == today.month && x.day <= today.day
  {
    var first := Date(today.year, today.month, 1);
    MonthStartIsFirstOfMonth(today);
    IsoOrderIsCalendarOrder(WeekStartDate(today), x);
    IsoOrderIsCalendarOrder(x, today);
    IsoOrderIsCalendarOrder(first, x);
    DayNumberOrder(x, first);
    DayNumberOrder(today, x);
  }

  /** Today's total is the sum of today's records, and neither the week's nor
      the month's total is smaller than it. */
  lemma DashboardTotalsOrdered(log: seq<Transaction>, today: Date)
    requires today.Valid() && FourDigitYear(today.year) && FourDigitYear(WeekStartDate(today).year)
    ensures UpdateDashboard(log, today).todayAmount == Total(GetTransactionsByDate(log, ToIsoString(today)))
    ensures UpdateDashboard(log, today).todayAmount <= UpdateDashboard(log, today).weekAmount
    ensures UpdateDashboard(log, today).todayAmount <= UpdateDashboard(log, today).monthAmount
  {
    var todayText := ToIsoString(today);
    SingleDayRange(log, todayText);
    WeekStartIsMonday(today);
    IsoOrderIsCalendarOrder(WeekStartDate(today), today);
    MonthStartIsFirstOfMonth(today);
    IsoOrderIsCalendarOrder(Date(today.year, today.month, 1), today);
    StrLeIsTotalOrder(todayText, todayText, todayText);
    RangeTotalMonotone(log, todayText, todayText, GetWeekStart(today), todayText);
    RangeTotalMonotone(log, todayText, todayText, GetMonthStart(today), todayText);
  }
}

=== FILE: iso_dates.dfy ===
/** The `YYYY-MM-DD` strings the app builds from dates
    (`${year}-${month}-${day}` with month and day padded to two digits), the
    start of the current week and month, and why comparing these strings as
    text orders them by calendar date. */
module IsoDates {
  import opened Text
  import opened CivilDates

  /** `${d.getFullYear()}-${pad(month)}-${pad(day)}`: the year is written
      unpadded, as `String(year)` writes it. */
  function ToIsoString(d: Date): string
    requires d.Valid()
  {
    IntToString(d.year) + "-" + PadStart2(NatToString(d.month)) + "-" + PadStart2(NatToString(d.day))
  }

  /** A year that `String(year)` writes with exactly four digits. */
  predicate FourDigitYear(y: int) {
    1000 <= y <= 9999
  }

  lemma IsoStringParts(d: Date)
    requires d.Valid()
    ensures ToIsoString(d) == IntToString(d.year) + ("-" + (Digits(d.month, 2) + ("-" + Digits(d.day, 2))))
    ensures FourDigitYear(d.year) ==>
      ToIsoString(d) == Digits(d.year, 4) + ("-" + (Digits(d.month, 2) + ("-" + Digits(d.day, 2))))
  {
    PadStart2OfNat(d.month);
    PadStart2OfNat(d.day);
    var y, m, dd := IntToString(d.year), Digits(d.month, 2), Digits(d.day, 2);
    assert ToIsoString(d) == (((y + "-") + m) + "-") + dd;
    SeqAssoc4(y, "-", m, "-", dd);
    if FourDigitYear(d.year) {
      NatToStringFixedWidth(d.year, 4);
    }
  }

  lemma SeqAssoc4(a: string, b: string, c: string, d: string, e: string)
    ensures (((a + b) + c) + d) + e == a + (b + (c + (d + e)))
  {
  }

  /** Different dates never share a string. */
  lemma IsoStringInjective(a: Date, b: Date)
    requires a.Valid() && b.Valid()
    requires ToIsoString(a) == ToIsoString(b)
    ensures a == b
  {
    IsoStringParts(a);
    IsoStringParts(b);
    var s := ToIsoString(a);
    var ya, yb := IntToString(a.year), IntToString(b.year);
    var ta := MonthDayTail(a.month, a.day);
    var tb := MonthDayTail(b.month, b.day);
    MonthDayTailParts(a.month, a.day);
    MonthDayTailParts(b.month, b.day);
    assert ya == s[..|s| - 6] == yb;
    assert ta == s[|s| - 6..] == tb;
    IntToStringInjective(a.year, b.year);
    DigitsOrder(a.month, b.month, 2);
    DigitsOrder(a.day, b.day, 2);
  }

  /** The `-MM-DD` end of a date's text. */
  function MonthDayTail(m: nat, d: nat): string
    requires m < 100 && d < 100
  {
    "-" + (Digits(m, 2) + ("-" + Digits(d, 2)))
  }

  lemma MonthDayTailParts(m: nat, d: nat)
    requires m < 100 && d < 100
    ensures |MonthDayTail(m, d)| == 6
    ensures MonthDayTail(m, d)[1..3] == Digits(m, 2) && MonthDayTail(m, d)[4..] == Digits(d, 2)
  {
    var mm, dd := Digits(m, 2), Digits(d, 2);
    var t := MonthDayTail(m, d);
    assert t == ['-', mm[0], mm[1], '-', dd[0], dd[1]];
  }

  /** For four-digit years, `<` on the strings is `<` on (year, month, day). */
  lemma IsoLtIsDateLt(a: Date, b: Date)
    requires a.Valid() && b.Valid() && FourDigitYear(a.year) && FourDigitYear(b.year)
    ensures StrLt(ToIsoString(a), ToIsoString(b)) <==> DateLt(a, b)
  {
    IsoStringParts(a);
    IsoStringParts(b);
    var da, db := Digits(a.day, 2), Digits(b.day, 2);
    var ma, mb := Digits(a.month, 2), Digits(b.month, 2);
    var ya, yb := Digits(a.year, 4), Digits(b.year, 4);
    DigitsOrder(a.day, b.day, 2);
    DigitsOrder(a.month, b.month, 2);
    DigitsOrder(a.year, b.year, 4);
    StrLtIrreflexive("-");
    var ra := "-" + da;
    var rb := "-" + db;
    StrLtConcat("-", da, "-", db);
    assert StrLt(ra, rb) <==> a.day < b.day;
    StrLtConcat(ma, ra, mb, rb);
    assert StrLt(ma + ra, mb + rb) <==> a.month < b.month || (a.month == b.month && a.day < b.day);
    StrLtConcat("-", ma + ra, "-", mb + rb);
    StrLtConcat(ya, "-" + (ma + ra), yb, "-" + (mb + rb));
  }

  /** For four-digit years, comparing the strings as text (what the range
      filters do) agrees with comparing the dates on the calendar. */
  lemma IsoOrderIsCalendarOrder(a: Date, b: Date)
    requires a.Valid() && b.Valid() && FourDigitYear(a.year) && FourDigitYear(b.year)
    ensures StrLt(ToIsoString(a), ToIsoString(b)) <==> DayNumber(a) < DayNumber(b)
    ensures StrLe(ToIsoString(a), ToIsoString(b)) <==> DayNumber(a) <= DayNumber(b)
  {
    IsoLtIsDateLt(a, b);
    IsoLtIsDateLt(b, a);
    DayNumberOrder(a, b);
    DayNumberOrder(b, a);
  }

  /** `getMonthStart()`: `${year}-${month}-01` for the current date. */
  function GetMonthStart(today: Date): string
    requires today.Valid()
  {
    IntToString(today.year) + "-" + PadStart2(NatToString(today.month)) + "-01"
  }

  /** The month start is the string of the first of today's month, which lies
      `day - 1` days before today. */
  lemma MonthStartIsFirstOfMonth(today: Date)
    requires today.Valid()
    ensures Date(today.year, today.month, 1).Valid()
    ensures GetMonthStart(today) == ToIsoString(Date(today.year, today.month, 1))
    ensures DayNumber(today) - DayNumber(Date(today.year, today.month, 1)) == today.day - 1
  {
    assert NatToString(1) == "1";
    DayOfMonth(today.year, today.month, today.day);
  }

  /** The date `getWeekStart()` lands on: `today.setDate(today.getDate() -
      dayOfWeek + (dayOfWeek === 0 ? -6 : 1))`. */
  function WeekStartDate(today: Date): (r: Date)
    requires today.Valid()
    ensures r.Valid()
  {
    var dayOfWeek := Weekday(today);
    SetDate(today, today.day - dayOfWeek + (if dayOfWeek == 0 then -6 else 1))
  }

  /** `getWeekStart()`: the string of that date. */
  function GetWeekStart(today: Date): string
    requires today.Valid()
  {
    ToIsoString(WeekStartDate(today))
  }

  /** The week starts on the Monday on or before today: 0..6 days back, and
      six days back when today is a Sunday. */
  lemma WeekStartIsMonday(today: Date)
    requires today.Valid()
    ensures Weekday(WeekStartDate(today)) == 1
    ensures 0 <= DayNumber(today) - DayNumber(WeekStartDate(today)) <= 6
    ensures Weekday(today) == 0 ==> DayNumber(today) - DayNumber(WeekStartDate(today)) == 6
    ensures Weekday(today) != 0 ==> DayNumber(today) - DayNumber(WeekStartDate(today)) == Weekday(today) - 1
  {
    var n := DayNumber(today);
    var w := Weekday(today);
    var back := if w == 0 then 6 else w - 1;
    var monday := WeekStartDate(today);
    assert DayNumber(monday) == n - back;
    MondayArithmetic(n);
    assert Weekday(monday) == DayNumber(monday) % 7;
  }

  lemma MondayArithmetic(n: int)
    ensures var w := n % 7; (n - (if w == 0 then 6 else w - 1)) % 7 == 1
  {
    var w := n % 7;
    assert n == 7 * (n / 7) + w;
    if w == 0 {
      assert n - 6 == 7 * (n / 7 - 1) + 1;
    } else {
      assert n - (w - 1) == 7 * (n / 7) + 1;
    }
  }
}

=== FILE: ledger.dfy ===
/** The transaction log and the pure operations over it: the filters the app
    applies (by id, by date, by date range, by category), the sum of amounts,
    the log after a delete or an edit, and the five most recent records. */
module Ledger {
  import opened Text
  import opened Categories

  /** One recorded expense. `date` is the `YYYY-MM-DD` text of the form's
      date field, kept as text; `timestamp` is informational only. */
  datatype Transaction = Transaction(
    id: int,
    amount: nat,
    category: string,
    description: string,
    date: string,
    timestamp: string)

  /** The four fields the edit form replaces. */
  datatype EditFields = EditFields(amount: nat, category: string, description: string, date: string)

  /** The conditions the app filters the log by. */
  datatype Criterion =
    | IdIsNot(id: int)                          // t.id !== id
    | DateIs(date: string)                      // t.date === date
    | DateBetween(start: string, end: string)   // t.date >= start && t.date <= end
    | CategoryIs(category: string)              // t.category === category
    | CategoryNameIs(name: string)              // getCategoryName(t.category) === name

  predicate Matches(c: Criterion, t: Transaction) {
    match c
    case IdIsNot(id) => t.id != id
    case DateIs(d) => t.date == d
    case DateBetween(s, e) => StrLe(s, t.date) && StrLe(t.date, e)
    case CategoryIs(cat) => t.category == cat
    case CategoryNameIs(n) => CategoryName(t.category) == n
  }

  /** The record as a one-element list when it matches, else nothing. */
  function Kept(c: Criterion, t: Transaction): (r: seq<Transaction>)
    ensures |r| <= 1
  {
    if Matches(c, t) then [t] else []
  }

  /** `log.filter(t => Matches(c, t))`. */
  function Filter(log: seq<Transaction>, c: Criterion): (r: seq<Transaction>)
    ensures |r| <= |log|
  {
    if log == [] then []
    else Kept(c, log[0]) + Filter(log[1..], c)
  }

  /** `log.reduce((sum, t) => sum + t.amount, 0)`. */
  function Total(log: seq<Transaction>): nat {
    if log == [] then 0 else log[0].amount + Total(log[1..])
  }

  predicate HasId(log: seq<Transaction>, id: int) {
    exists i :: 0 <= i < |log| && log[i].id == id
  }

  predicate UniqueIds(log: seq<Transaction>) {
    forall i, j :: 0 <= i < j < |log| ==> log[i].id != log[j].id
  }

  /** `a` is `b` with some elements left out, the rest in the same order. */
  predicate IsSubsequence(a: seq<Transaction>, b: seq<Transaction>)
    decreases |b|
  {
    if a == [] then true
    else if b == [] then false
    else (a[0] == b[0] && IsSubsequence(a[1..], b[1..])) || IsSubsequence(a, b[1..])
  }

  // ---------------------------------------------------------------------------
  // Filtering
  // ---------------------------------------------------------------------------

  lemma {:induction false} FilterAppend(a: seq<Transaction>, b: seq<Transaction>, c: Criterion)
    ensures Filter(a + b, c) == Filter(a, c) + Filter(b, c)
    decreases |a|
  {
    if a != [] {
      var head := Kept(c, a[0]);
      assert (a + b)[1..] == a[1..] + b;
      assert Filter(a + b, c) == head + Filter(a[1..] + b, c);
      FilterAppend(a[1..], b, c);
      assert head + (Filter(a[1..], c) + Filter(b, c)) == (head + Filter(a[1..], c)) + Filter(b, c);
    } else {
      assert a + b == b;
    }
  }

  /** A filter keeps only records of the log that match. */
  lemma {:induction false} FilterMembers(log: seq<Transaction>, c: Criterion)
    ensures forall t :: t in Filter(log, c) ==> t in log && Matches(c, t)
    decreases |log|
  {
    if log != [] {
      FilterMembers(log[1..], c);
      assert forall t :: t in Filter(log, c) ==> t in Kept(c, log[0]) || t in Filter(log[1..], c);
    }
  }

  lemma {:induction false} FilterIsSubsequence(log: seq<Transaction>, c: Criterion)
    ensures IsSubsequence(Filter(log, c), log)
    decreases |log|
  {
    if log != [] {
      FilterIsSubsequence(log[1..], c);
      if Matches(c, log[0]) {
        assert Filter(log, c)[1..] == Filter(log[1..], c);
      } else {
        assert Filter(log, c) == Filter(log[1..], c);
      }
    }
  }

  lemma {:induction false} IsSubsequenceReflexive(log: seq<Transaction>)
    ensures IsSubsequence(log, log)
    decreases |log|
  {
    if log != [] {
      IsSubsequenceReflexive(log[1..]);
    }
  }

  /** A filter keeps exactly the records that match, each as often as the
      log holds it, in their original order. */
  lemma {:induction false} FilterExactly(log: seq<Transaction>, c: Criterion)
    ensures forall t :: multiset(Filter(log, c))[t] == if Matches(c, t) then multiset(log)[t] else 0
    ensures IsSubsequence(Filter(log, c), log)
    decreases |log|
  {
    FilterIsSubsequence(log, c);
    FilterCounts(log, c);
  }

  lemma {:induction false} FilterCounts(log: seq<Transaction>, c: Criterion)
    ensures forall t :: multiset(Filter(log, c))[t] == if Matches(c, t) then multiset(log)[t] else 0
    decreases |log|
  {
    if log != [] {
      var rest := log[1..];
      FilterCounts(rest, c);
      assert log == [log[0]] + rest;
      assert multiset(log) == multiset([log[0]]) + multiset(rest);
      assert multiset(Filter(log, c)) == multiset(Kept(c, log[0])) + multiset(Filter(rest, c));
    }
  }

  lemma {:induction false} FilterSameCriteria(log: seq<Transaction>, c1: Criterion, c2: Criterion)
    requires forall t :: t in log ==> (Matches(c1, t) <==> Matches(c2, t))
    ensures Filter(log, c1) == Filter(log, c2)
    decreases |log|
  {
    if log != [] {
      assert log[0] in log;
      assert forall t :: t in log[1..] ==> t in log;
      FilterSameCriteria(log[1..], c1, c2);
    }
  }

  lemma {:induction false} FilterKeepsAll(log: seq<Transaction>, c: Criterion)
    requires forall t :: t in log ==> Matches(c, t)
    ensures Filter(log, c) == log
    decreases |log|
  {
    if log != [] {
      assert log[0] in log;
      assert forall t :: t in log[1..] ==> t in log;
      FilterKeepsAll(log[1..], c);
      assert log == [log[0]] + log[1..];
    }
  }

  lemma {:induction false} FilterNonEmpty(log: seq<Transaction>, c: Criterion)
    ensures |Filter(log, c)| > 0 <==> exists t :: t in log && Matches(c, t)
    decreases |log|
  {
    if log != [] {
      FilterNonEmpty(log[1..], c);
      assert forall t :: t in log ==> t == log[0] || t in log[1..];
    }
  }

  lemma {:induction false} FilterKeepsUniqueIds(log: seq<Transaction>, c: Criterion)
    requires UniqueIds(log)
    ensures UniqueIds(Filter(log, c))
    decreases |log|
  {
    if log != [] {
      FilterKeepsUniqueIds(log[1..], c);
      FilterMembers(log[1..], c);
      var rest := Filter(log[1..], c);
      if Matches(c, log[0]) {
        forall j | 0 <= j < |rest|
          ensures rest[j].id != log[0].id
        {
          assert rest[j] in log[1..];
          var k :| 0 <= k < |log[1..]| && log[1..][k] == rest[j];
          assert log[k + 1] == rest[j];
        }
      }
    }
  }

  lemma {:induction false} TotalAppend(a: seq<Transaction>, b: seq<Transaction>)
    ensures Total(a + b) == Total(a) + Total(b)
    decreases |a|
  {
    if a != [] {
      assert (a + b)[1..] == a[1..] + b;
      TotalAppend(a[1..], b);
    } else {
      assert a + b == b;
    }
  }

  /** A weaker criterion never sums to less. */
  lemma {:induction false} TotalFilterMonotone(log: seq<Transaction>, c1: Criterion, c2: Criterion)
    requires forall t :: t in log && Matches(c1, t) ==> Matches(c2, t)
    ensures Total(Filter(log, c1)) <= Total(Filter(log, c2))
    decreases |log|
  {
    if log != [] {
      assert log[0] in log;
      assert forall t :: t in log[1..] ==> t in log;
      TotalFilterMonotone(log[1..], c1, c2);
      var h1 := Kept(c1, log[0]);
      var h2 := Kept(c2, log[0]);
      TotalAppend(h1, Filter(log[1..], c1));
      TotalAppend(h2, Filter(log[1..], c2));
    }
  }

  // ---------------------------------------------------------------------------
  // Store operations as functions of the log
  // ---------------------------------------------------------------------------

  /** `log.filter(t => t.id !== id)`: the log after `deleteTransaction(id)`. */
  function DeleteById(log: seq<Transaction>, id: int): seq<Transaction> {
    Filter(log, IdIsNot(id))
  }

  /** Deleting removes every record with the id and keeps every other record,
      as often as the log held it, in its original order. */
  lemma DeleteRemovesExactlyThatId(log: seq<Transaction>, id: int)
    ensures !HasId(DeleteById(log, id), id)
    ensures forall t :: multiset(DeleteById(log, id))[t] == if t.id == id then 0 else multiset(log)[t]
    ensures IsSubsequence(DeleteById(log, id), log)
    ensures |DeleteById(log, id)| <= |log|
  {
    FilterExactly(log, IdIsNot(id));
    FilterMembers(log, IdIsNot(id));
    var r := DeleteById(log, id);
    forall i | 0 <= i < |r|
      ensures r[i].id != id
    {
      assert r[i] in r;
    }
  }

  /** Deleting an id the log does not hold leaves it unchanged. */
  lemma DeleteAbsentIsIdentity(log: seq<Transaction>, id: int)
    requires !HasId(log, id)
    ensures DeleteById(log, id) == log
  {
    forall t | t in log
      ensures Matches(IdIsNot(id), t)
    {
      var i :| 0 <= i < |log| && log[i] == t;
    }
    FilterKeepsAll(log, IdIsNot(id));
  }

  /** Adding a record with a fresh id and then deleting that id restores the log. */
  lemma AddThenDeleteRestores(log: seq<Transaction>, t: Transaction)
    requires !HasId(log, t.id)
    ensures DeleteById([t] + log, t.id) == log
  {
    assert ([t] + log)[1..] == log;
    DeleteAbsentIsIdentity(log, t.id);
  }

  /** Adding a record with a fresh id, and deleting any id, keep ids unique. */
  lemma StoreKeepsUniqueIds(log: seq<Transaction>, t: Transaction, id: int)
    requires UniqueIds(log)
    ensures !HasId(log, t.id) ==> UniqueIds([t] + log)
    ensures UniqueIds(DeleteById(log, id))
  {
    FilterKeepsUniqueIds(log, IdIsNot(id));
    if !HasId(log, t.id) {
      forall i, j | 0 <= i < j < |[t] + log|
        ensures ([t] + log)[i].id != ([t] + log)[j].id
      {
        if i == 0 {
          assert ([t] + log)[j] == log[j - 1];
        }
      }
    }
  }

  function Edited(t: Transaction, f: EditFields): Transaction {
    t.(amount := f.amount, category := f.category, description := f.description, date := f.date)
  }

  /** The log after the edit form is submitted for `id`: the first record with
      that id gets the four new fields, keeping its id and timestamp. */
  function EditById(log: seq<Transaction>, id: int, f: EditFields): (r: seq<Transaction>)
    ensures |r| == |log|
    ensures forall i :: 0 <= i < |r| ==> r[i].id == log[i].id && r[i].timestamp == log[i].timestamp
  {
    if log == [] then []
    else if log[0].id == id then [Edited(log[0], f)] + log[1..]
    else [log[0]] + EditById(log[1..], id, f)
  }

  /** Editing replaces the record at the first index holding the id and
      nothing else. */
  lemma {:induction false} EditAtFirstMatch(log: seq<Transaction>, id: int, f: EditFields, i: int)
    requires 0 <= i < |log| && log[i].id == id
    requires forall j :: 0 <= j < i ==> log[j].id != id
    ensures EditById(log, id, f) == log[i := Edited(log[i], f)]
    decreases i
  {
    if i > 0 {
      EditAtFirstMatch(log[1..], id, f, i - 1);
      assert log == [log[0]] + log[1..];
    }
  }

  /** Editing an id the log does not hold changes nothing. */
  lemma {:induction false} EditAbsentIsIdentity(log: seq<Transaction>, id: int, f: EditFields)
    requires !HasId(log, id)
    ensures EditById(log, id, f) == log
    decreases |log|
  {
    if log != [] {
      assert log[0].id != id;
      EditAbsentIsIdentity(log[1..], id, f);
      assert log == [log[0]] + log[1..];
    }
  }

  /** `transactions.slice(0, 5)`: the five newest records shown on the dashboard. */
  function Recent(log: seq<Transaction>): (r: seq<Transaction>)
    ensures |r| <= 5 && |r| <= |log| && r == log[..|r|]
    ensures |r| == 5 || r == log
  {
    log[..if |log| < 5 then |log| else 5]
  }

  /** After an add the new record is shown first and the rest of the list
      moves down one place, the fifth falling off. */
  lemma RecentAfterAdd(log: seq<Transaction>, t: Transaction)
    ensures Recent([t] + log)[0] == t
    ensures Recent([t] + log)[1..] == Recent(log)[..|Recent([t] + log)| - 1]
  {
  }

  /** The list view's category filter (`filterTransactions`): every record
      when the selection is empty, otherwise the records of that category. */
  function FilterByCategory(log: seq<Transaction>, selected: string): seq<Transaction> {
    if selected == "" then log else Filter(log, CategoryIs(selected))
  }

  lemma FilterByCategoryExactly(log: seq<Transaction>, selected: string)
    ensures selected == "" ==> FilterByCategory(log, selected) == log
    ensures selected != "" ==> forall t ::
      multiset(FilterByCategory(log, selected))[t] == if t.category == selected then multiset(log)[t] else 0
    ensures IsSubsequence(FilterByCategory(log, selected), log)
    ensures |FilterByCategory(log, selected)| <= |log|
  {
    FilterExactly(log, CategoryIs(selected));
    IsSubsequenceReflexive(log);
  }

  /** `getTransactionsByDate(date)`. */
  function GetTransactionsByDate(log: seq<Transaction>, date: string): seq<Transaction> {
    Filter(log, DateIs(date))
  }

  /** `getTotalByDateRange(start, end)`: the sum of the amounts of the records
      whose date text lies between `start` and `end` inclusive. */
  function GetTotalByDateRange(log: seq<Transaction>, start: string, end: string): nat {
    Total(Filter(log, DateBetween(start, end)))
  }

  /** A one-day range sums exactly the records of that day. */
  lemma SingleDayRange(log: seq<Transaction>, date: string)
    ensures Filter(log, DateBetween(date, date)) == GetTransactionsByDate(log, date)
    ensures GetTotalByDateRange(log, date, date) == Total(GetTransactionsByDate(log, date))
  {
    forall t | t in log
      ensures Matches(DateBetween(date, date), t) <==> Matches(DateIs(date), t)
    {
      StrLeIsTotalOrder(date, t.date, date);
      StrLeIsTotalOrder(t.date, date, t.date);
    }
    FilterSameCriteria(log, DateBetween(date, date), DateIs(date));
  }

  /** Widening a range on either side never lowers its total. */
  lemma RangeTotalMonotone(log: seq<Transaction>, s1: string, e1: string, s2: string, e2: string)
    requires StrLe(s2, s1) && StrLe(e1, e2)
    ensures GetTotalByDateRange(log, s1, e1) <= GetTotalByDateRange(log, s2, e2)
  {
    forall t | t in log && Matches(DateBetween(s1, e1), t)
      ensures Matches(DateBetween(s2, e2), t)
    {
      StrLeIsTotalOrder(s2, s1, t.date);
      StrLeIsTotalOrder(t.date, e1, e2);
    }
    TotalFilterMonotone(log, DateBetween(s1, e1), DateBetween(s2, e2));
  }

  /** `transactions.findIndex(t => t.id == id)`: the first index holding the
      id, or -1. */
  method FindIndex(log: seq<Transaction>, id: int) returns (idx: int)
    ensures idx == -1 <==> !HasId(log, id)
    ensures idx != -1 ==> 0 <= idx < |log| && log[idx].id == id
    ensures idx != -1 ==> forall j :: 0 <= j < idx ==> log[j].id != id
  {
    idx := 0;
    while idx < |log|
      invariant 0 <= idx <= |log|
      invariant forall j :: 0 <= j < idx ==> log[j].id != id
    {
      if log[idx].id == id {
        return;
      }
      idx := idx + 1;
    }
    idx := -1;
  }
}

=== FILE: text.dfy ===
/** The string operations the app relies on, as JavaScript defines them:
    decimal rendering of a number (`String(n)`), `padStart(2, '0')`,
    stripping every non-digit (`replace(/[^\d]/g, '')`), `parseInt` on the
    digit strings the app feeds it, and the relational comparison of two
    strings (`a < b`, `a <= b`). */
module Text {
  import opened Wrappers

  predicate IsDigit(c: char) {
    '0' <= c <= '9'
  }

  predicate AllDigits(s: string) {
    forall i :: 0 <= i < |s| ==> IsDigit(s[i])
  }

  function DigitChar(n: nat): (c: char)
    requires n < 10
    ensures IsDigit(c)
  {
    (48 + n) as char
  }

  function DigitValue(c: char): (n: nat)
    requires IsDigit(c)
    ensures n < 10 && DigitChar(n) == c
  {
    c as int - 48
  }

  function Pow10(w: nat): (p: nat)
    ensures p >= 1
  {
    if w == 0 then 1 else 10 * Pow10(w - 1)
  }

  // ---------------------------------------------------------------------------
  // Numbers as decimal text
  // ---------------------------------------------------------------------------

  /** `String(n)` for a non-negative integer: its decimal digits, no leading zero. */
  function NatToString(n: nat): (s: string)
    ensures 1 <= |s| && AllDigits(s)
    ensures s[0] == '0' ==> n == 0
    decreases n
  {
    if n < 10 then [DigitChar(n)] else NatToString(n / 10) + [DigitChar(n % 10)]
  }

  /** `String(n)` for any integer: a minus sign before the digits of a negative one. */
  function IntToString(i: int): (s: string)
    ensures 1 <= |s|
    ensures s[0] == '-' <==> i < 0
  {
    if i < 0 then "-" + NatToString(-i) else NatToString(i)
  }

  /** The value of a string of decimal digits (leading zeros allowed). */
  function ParseDigits(s: string): (n: nat)
    requires AllDigits(s)
    ensures n < Pow10(|s|)
    decreases |s|
  {
    if s == [] then 0 else 10 * ParseDigits(s[..|s| - 1]) + DigitValue(s[|s| - 1])
  }

  /** The longest prefix of `s` made of digits. */
  function DigitPrefix(s: string): (p: string)
    ensures AllDigits(p) && |p| <= |s| && p == s[..|p|]
    ensures |p| < |s| ==> !IsDigit(s[|p|])
  {
    if s == [] || !IsDigit(s[0]) then [] else [s[0]] + DigitPrefix(s[1..])
  }

  /** `parseInt(s)` on a string that starts with its digits: `None` stands for
      NaN, the result when no digit comes first. */
  function ParseInt(s: string): (r: Option<nat>)
    ensures r.None? <==> (s == [] || !IsDigit(s[0]))
    ensures AllDigits(s) && s != [] ==> r == Some(ParseDigits(s))
  {
    var p := DigitPrefix(s);
    assert AllDigits(s) ==> p == s;
    if p == [] then None else Some(ParseDigits(p))
  }

  /** `s.replace(/[^\d]/g, '')`: the digits of `s`, in order. */
  function KeepDigits(s: string): (r: string)
    ensures AllDigits(r) && |r| <= |s|
    ensures AllDigits(s) ==> r == s
    ensures |s| == 1 ==> r == (if IsDigit(s[0]) then s else [])
  {
    if s == [] then []
    else (if IsDigit(s[0]) then [s[0]] else []) + KeepDigits(s[1..])
  }

  /** Stripping works piece by piece: the digits of `a + b` are those of `a`
      followed by those of `b`. With the single-character case above, this
      determines `KeepDigits` on every string. */
  lemma {:induction false} KeepDigitsAppend(a: string, b: string)
    ensures KeepDigits(a + b) == KeepDigits(a) + KeepDigits(b)
    decreases |a|
  {
    if a == [] {
      assert a + b == b;
    } else {
      assert (a + b)[1..] == a[1..] + b;
      KeepDigitsAppend(a[1..], b);
    }
  }

  /** `s.padStart(2, '0')`. */
  function PadStart2(s: string): (r: string)
    ensures |r| == if |s| < 2 then 2 else |s|
    ensures r[|r| - |s|..] == s
    ensures forall i :: 0 <= i < |r| - |s| ==> r[i] == '0'
  {
    if |s| == 0 then "00" else if |s| == 1 then "0" + s else s
  }

  /** `x` written with exactly `w` digits (zero-padded). */
  function Digits(x: nat, w: nat): (s: string)
    requires x < Pow10(w)
    ensures |s| == w && AllDigits(s)
  {
    if w == 0 then [] else Digits(x / 10, w - 1) + [DigitChar(x % 10)]
  }

  lemma {:induction false} ParseNatToString(n: nat)
    ensures ParseDigits(NatToString(n)) == n
    decreases n
  {
    if n >= 10 {
      var s := NatToString(n);
      assert s[..|s| - 1] == NatToString(n / 10);
      ParseNatToString(n / 10);
    }
  }

  lemma NatToStringInjective(a: nat, b: nat)
    requires NatToString(a) == NatToString(b)
    ensures a == b
  {
    ParseNatToString(a);
    ParseNatToString(b);
  }

  lemma IntToStringInjective(a: int, b: int)
    requires IntToString(a) == IntToString(b)
    ensures a == b
  {
    if a < 0 {
      assert IntToString(a)[1..] == NatToString(-a);
      assert IntToString(b)[1..] == NatToString(-b);
      NatToStringInjective(-a, -b);
    } else {
      NatToStringInjective(a, b);
    }
  }

  /** Between `10^(w-1)` and `10^w`, `String(x)` has exactly `w` digits. */
  lemma {:induction false} NatToStringFixedWidth(x: nat, w: nat)
    requires 1 <= w && Pow10(w - 1) <= x < Pow10(w)
    ensures NatToString(x) == Digits(x, w)
    decreases w
  {
    if w == 1 {
      assert x / 10 == 0;
      assert Digits(0, 0) == [];
    } else {
      assert Pow10(w - 1) == 10 * Pow10(w - 2);
      NatToStringFixedWidth(x / 10, w - 1);
    }
  }

  /** `String(n).padStart(2, '0')` is the two-digit form of any `n < 100`. */
  lemma PadStart2OfNat(n: nat)
    requires n < 100
    ensures PadStart2(NatToString(n)) == Digits(n, 2)
  {
    if n < 10 {
      assert Digits(n, 2) == Digits(0, 1) + [DigitChar(n)];
      assert Digits(0, 1) == Digits(0, 0) + [DigitChar(0)];
    } else {
      NatToStringFixedWidth(n, 2);
    }
  }

  // ---------------------------------------------------------------------------
  // String comparison
  // ---------------------------------------------------------------------------

  /** JavaScript's `a < b` on strings: the first differing character decides,
      and a proper prefix is smaller. */
  predicate StrLt(a: string, b: string)
    decreases |a|
  {
    if b == [] then false
    else if a == [] then true
    else if a[0] != b[0] then a[0] < b[0]
    else StrLt(a[1..], b[1..])
  }

  /** JavaScript's `a <= b` on strings, which is defined as `!(b < a)`. */
  predicate StrLe(a: string, b: string) {
    !StrLt(b, a)
  }

  lemma {:induction false} StrLtIrreflexive(a: string)
    ensures !StrLt(a, a)
    decreases |a|
  {
    if a != [] {
      StrLtIrreflexive(a[1..]);
    }
  }

  lemma {:induction false} StrLtTrichotomy(a: string, b: string)
    ensures StrLt(a, b) || a == b || StrLt(b, a)
    decreases |a|
  {
    if a != [] && b != [] && a[0] == b[0] {
      StrLtTrichotomy(a[1..], b[1..]);
      if a[1..] == b[1..] {
        assert a == [a[0]] + a[1..] && b == [b[0]] + b[1..];
      }
    }
  }

  lemma {:induction false} StrLtAsymmetric(a: string, b: string)
    ensures !(StrLt(a, b) && StrLt(b, a))
    decreases |a|
  {
    if a != [] && b != [] && a[0] == b[0] {
      StrLtAsymmetric(a[1..], b[1..]);
    }
  }

  lemma {:induction false} StrLtTransitive(a: string, b: string, c: string)
    requires StrLt(a, b) && StrLt(b, c)
    ensures StrLt(a, c)
    decreases |a|
  {
    if a != [] && a[0] == b[0] && b[0] == c[0] {
      StrLtTransitive(a[1..], b[1..], c[1..]);
    }
  }

  /** `<=` on strings is reflexive, antisymmetric, transitive and total. */
  lemma StrLeIsTotalOrder(a: string, b: string, c: string)
    ensures StrLe(a, a)
    ensures StrLe(a, b) && StrLe(b, a) ==> a == b
    ensures StrLe(a, b) && StrLe(b, c) ==> StrLe(a, c)
    ensures StrLe(a, b) || StrLe(b, a)
  {
    StrLtIrreflexive(a);
    StrLtTrichotomy(a, b);
    StrLtAsymmetric(a, b);
    if StrLe(a, b) && StrLe(b, c) && StrLt(c, a) {
      StrLtTrichotomy(a, b);
      if StrLt(a, b) {
        StrLtTransitive(c, a, b);
      }
    }
  }

  /** Comparing two concatenations whose first parts have the same length
      compares the first parts, and on a tie the second parts. */
  lemma {:induction false} StrLtConcat(a1: string, b1: string, a2: string, b2: string)
    requires |a1| == |a2|
    ensures StrLt(a1 + b1, a2 + b2) <==> StrLt(a1, a2) || (a1 == a2 && StrLt(b1, b2))
    decreases |a1|
  {
    if a1 == [] {
      assert a1 + b1 == b1 && a2 + b2 == b2;
    } else {
      assert (a1 + b1)[0] == a1[0] && (a2 + b2)[0] == a2[0];
      assert (a1 + b1)[1..] == a1[1..] + b1 && (a2 + b2)[1..] == a2[1..] + b2;
      StrLtConcat(a1[1..], b1, a2[1..], b2);
      if a1[0] == a2[0] && a1[1..] == a2[1..] {
        assert a1 == [a1[0]] + a1[1..] && a2 == [a2[0]] + a2[1..];
      }
      if a1 == a2 {
        assert a1[1..] == a2[1..];
      }
    }
  }

  /** Fixed-width digit strings compare as the numbers they write. */
  lemma {:induction false} DigitsOrder(x: nat, y: nat, w: nat)
    requires x < Pow10(w) && y < Pow10(w)
    ensures StrLt(Digits(x, w), Digits(y, w)) <==> x < y
    ensures Digits(x, w) == Digits(y, w) <==> x == y
    decreases w
  {
    if w == 0 {
    } else {
      assert Pow10(w) == 10 * Pow10(w - 1);
      DigitsOrder(x / 10, y / 10, w - 1);
      var hx, hy := Digits(x / 10, w - 1), Digits(y / 10, w - 1);
      var cx, cy := DigitChar(x % 10), DigitChar(y % 10);
      StrLtConcat(hx, [cx], hy, [cy]);
      assert StrLt([cx], [cy]) <==> x % 10 < y % 10;
      if Digits(x, w) == Digits(y, w) {
        assert hx == Digits(x, w)[..w - 1] && hy == Digits(y, w)[..w - 1];
        assert cx == Digits(x, w)[w - 1] && cy == Digits(y, w)[w - 1];
        assert DigitValue(cx) == x % 10 && DigitValue(cy) == y % 10;
      }
    }
  }
}

=== FILE: wrappers.dfy ===
/** A value that may be missing: a `null`, an absent storage key, or the NaN
    of a failed `parseInt`. */
module Wrappers {
  datatype Option<T> = None | Some(value: T)
}
